=== FILE: README.md ===
# Sea spurge release-polygon pipeline: a Dafny model

This project models the bookkeeping core of the sea spurge AU-to-NZ
particle-tracking pipeline. The physics of the simulator is not part of it.
The model covers five parts:

- **Polygon ingestion** (`Loader`, loader.dfy).
  - GeoJSON `Polygon` / `MultiPolygon` features become `{name, points}` records named `"<long_name>_<feature index>"`.
  - Features whose outer ring is missing are skipped. Features whose coordinates cannot be indexed make the loader fail.
  - Records are re-projected (WGS84 ↔ NZTM, or left alone) and optionally simplified.
  - Dataframe rows become catch polygons: the `SI_10` row is dropped and spaces in names become underscores.
  - Sampling-site features become named probe points. The name is the `code`, else the `sample`, else `Point_<count so far>`.
- **Ring simplification** (`Simplify`, simplify.dfy).
  - The recursive Ramer–Douglas–Peucker split at the first farthest interior point.
  - The per-polygon wrapper, which drops the closing point of a closed ring, re-closes the simplified ring with its first point, and falls back to the first three input points when fewer than three would remain.
- **Release-polygon selection** (`Selection`, selection.dfy).
  - The sorted, duplicate-free indices of the polygons that contain some sampling location.
  - The removal of polygons with fewer than four points by popping their indices in descending order.
  - `prepare_polygons`, which chains loading, selection and removal.
- **Chunk resumption** (`Batching`, batching.dfy): `get_next_chunk_number`, over a snapshot of the output directory.
- **Chunking** (`Chunking`, chunking.dfy).
  - The number of chunks (a ceiling division).
  - The slice each chunk processes.
  - The zero-padded chunk run names, and how those names read back through the scheduler.

Supporting modules:

- `Wrappers`: `Option` and `Result`.
- `Geometry`: `Point`, `Polygon`, `SamplingLocation`.
- `Strings`: decimal rendering, zero padding, `int()`, `startswith` / `endswith`, `split(sep)[1]`.
- `Indices`: increasing index sequences, the positions satisfying a predicate, and the concatenation of a sequence of sequences.

Parameters stand in for everything the core takes from libraries:

- the point-to-line distance, as `Simplify.DistanceFn`;
- shapely's point-in-polygon test, as `Selection.Containment`;
- the two coordinate transforms, as `Loader.Transform`.

Every property is proved for all values of these parameters. Files and directory listings are replaced by their parsed contents:

- GeoJSON files by `Loader.GeoJsonFile`;
- a dataframe by a sequence of `Loader.Row`;
- a directory listing by a sequence of `Batching.DirEntry`.

Two behaviours of the code shape the scheduler's contracts:

- It returns the first incomplete chunk in listing order (the order of `os.listdir`), which need not be the lowest-numbered incomplete chunk.
- It reads the chunk number as `int(d.split("_chunk_")[1])`: the text between the first and the second `_chunk_` of the directory name (or its end).

## Model

| member | source | states |
|---|---|---|
| Simplify.ScanFarthest | simplify_polygons.py:49-56 | the running maximum starts at index 0 and distance 0; a non-zero index always carries the chord distance of that point |
| Simplify.ScanIsFirstMaximum | simplify_polygons.py:49-56 | the scan result is at least every visited chord distance and strictly above every one before its index: it is the first farthest point |
| Simplify.ScanFindsFirstMaximum | simplify_polygons.py:49-56 | conversely, a strictly positive first maximum at index j is exactly what the scan returns |
| Simplify.RamerDouglasPeucker | simplify_polygons.py:34-68 | at most two points come back unchanged; otherwise the result has between 2 and len(points) points and keeps the first and last point |
| Simplify.RdpSplit | simplify_polygons.py:59-65 | the split branch keeps both endpoints and never grows the ring |
| Simplify.RdpCollapsesIffWithinChord | simplify_polygons.py:45-68 | a ring of three or more points collapses to two points exactly when every interior point lies within tolerance of the chord, and then to [first, last] |
| Simplify.KeptIndices | simplify_polygons.py:34-68 | the kept positions start at 0, end at the last index and strictly increase |
| Simplify.RdpSelectsKeptIndices | simplify_polygons.py:34-68 | the simplified ring is the input restricted to the kept positions: an order-preserving subsequence |
| Simplify.RdpWithinTolerance | simplify_polygons.py:34-68 | every dropped point lies within tolerance of the chord between the kept points on either side of it |
| Simplify.RdpSplitsAt | simplify_polygons.py:59-65 | when the farthest point exceeds the tolerance, the result is the left half's result glued to the right half's at the shared pivot |
| Simplify.RescanFindsPivot | simplify_polygons.py:49-65 | scanning the simplified ring again finds the same pivot, above the tolerance, splitting it into the two half results |
| Simplify.RdpIdempotent | simplify_polygons.py:34-68 | simplifying an already simplified ring with the same tolerance changes nothing |
| Simplify.RdpPointsFromInput | simplify_polygons.py:34-68 | every point of the result is a point of the input |
| Simplify.SimplifyRing | simplify_polygons.py:83-103 | rings of at most two points come back unchanged; otherwise the result has between 3 and len(points) points; a closed ring stays closed on its first point |
| Simplify.SimplifyOpenRing | simplify_polygons.py:97-103 | an open ring gives its first three points when all interior points are within tolerance, and its RDP simplification otherwise |
| Simplify.SimplifyClosedRing | simplify_polygons.py:88-96 | a closed ring is simplified without its closing point and re-closed with its first point |
| Simplify.SimplifyRingPointsFromInput | simplify_polygons.py:83-103 | the simplified ring introduces no new points |
| Simplify.SimplifyRingIdempotent | simplify_polygons.py:83-103 | simplifying a simplified ring leaves it unchanged exactly when the input is not an open ring that collapses to its chord and is clamped to three points whose first and third are within 1e-6 but not equal |
| Simplify.SimplifyRingTwiceReopens | simplify_polygons.py:83-103 | with every distance 0 and tolerance 0, the open ring (0,0),(1,1),(1e-7,0),(10,0) simplifies to its first three points, and simplifying those again gives (0,0),(1,1),(0,0) |
| Simplify.SimplifyPolygons | simplify_polygons.py:70-110 | one output polygon per input polygon, in order, with the same name and the simplified ring |
| Loader.OuterRing | load_polygons.py:130-158 | Polygon-shaped coordinates give their first ring exactly when it is non-empty, and are skipped (not an error) when there is no ring or the first ring is empty; MultiPolygon-shaped ones give `coordinates[0][0]` exactly when it is non-empty, and are skipped when there is no first polygon or it has no ring; a bare position is an escaping error |
| Loader.OuterRingWrapped | load_polygons.py:132-137 | a Polygon's rings wrapped as the single polygon of a MultiPolygon yield the same outer ring |
| Loader.RecordName | load_polygons.py:127-148 | a record name is the long name, an underscore, then the decimal digits of the feature's 0-based index in its file, with no leading zero, which int() reads back as that index |
| Loader.RecordNameInjective | load_polygons.py:127-148 | two features of the same file get the same record name exactly when they have the same index |
| Loader.FeatureRecord | load_polygons.py:119-158 | a feature fails exactly when it is a polygon type with unindexable coordinates, and yields a record exactly when it is a polygon type with an outer ring |
| Loader.ReadFeaturesFails | load_polygons.py:119-158 | reading a file's features fails if and only if some feature breaks the loader |
| Loader.ReadFeaturesRecords | load_polygons.py:119-158 | a successful read holds one record per yielding feature, in feature order, named after that feature's index |
| Loader.FileNamesDistinct | load_polygons.py:127-148 | the records read from one file have pairwise distinct names |
| Loader.ReadCoastalPolygons | load_polygons.py:104-164 | reading a file list fails exactly when reading some file fails, and then with that file's error |
| Loader.ReadCoastalPolygonsAppend | load_polygons.py:113-164 | reading two file lists in turn is the concatenation of the two reads, or the first failure |
| Loader.ReadSingleFile | load_polygons.py:113-164 | a one-file list reads exactly that file's features |
| Loader.MapPoints | load_polygons.py:82-91 | re-projection keeps every name and ring length and maps each point through the transform |
| Loader.Reproject | load_polygons.py:80-95 | equal projections leave the records alone; WGS84→NZTM applies the NZTM transform to every point and NZTM→WGS84 the WGS84 one; any other pair is the ValueError; names and ring lengths are kept |
| Loader.ReprojectRoundTrip | load_polygons.py:80-91 | WGS84→NZTM followed by NZTM→WGS84 restores the records whenever the transforms are mutually inverse |
| Loader.LoadPolygons | load_polygons.py:64-101 | read errors and projection errors propagate unchanged; otherwise each polygon is the re-projected record with its ring simplified when a tolerance is given |
| Loader.ReplaceSpaces | load_polygons.py:228 | every space becomes an underscore and every other character is kept |
| Loader.CatchPolysFromRows | load_polygons.py:210-231 | no catch polygon name holds a space, and without an SI_10 row every row becomes a polygon |
| Loader.CatchPolysAppend | load_polygons.py:217-231 | rows are converted independently and in order |
| Loader.CatchPolysSingleRow | load_polygons.py:219-229 | an SI_10 row is dropped; any other row becomes one polygon with spaces in its name replaced; a row named "SI 10" is kept as SI_10 |
| Loader.LocationName | load_polygons.py:251 | the name is the code when truthy, else the sample when truthy, else Point_ followed by the count of locations so far |
| Loader.LocationsFromSites | load_polygons.py:243-256 | one location per feature with a geometry, in order, each named with its own running count |
| Loader.LoadSamplingLocations | load_polygons.py:234-258 | there are never more locations than site features |
| Loader.LoadSamplingLocationsNames | load_polygons.py:234-258 | over all files in order, the k-th location takes the coordinates of the k-th located feature and the name derived from that feature's properties and k |
| Loader.FallbackNamesDistinct | load_polygons.py:251 | fallback Point_ names of different counts differ |
| Selection.SortedBelow | load_polygons.py:291 | sorting an index set gives strictly increasing members of the set |
| Selection.SortedBelowComplete | load_polygons.py:291 | every member of the index set appears in the sorted list |
| Selection.FindContainingPolygons | load_polygons.py:261-291 | the result is strictly increasing, and a polygon index is in it if and only if the polygon contains some sampling location |
| Selection.WellDefined | load_polygons.py:320-322 | the kept polygons all have at least four points and are no more than the input |
| Selection.WellDefinedMembers | load_polygons.py:320-324 | a polygon is kept if and only if it is in the input with at least four points |
| Selection.RemoveIllDefined | load_polygons.py:320-324 | popping the short polygons' indices in descending order leaves exactly the input's polygons with four or more points, in their original order |
| Selection.Containing | load_polygons.py:313-314 | the reference for the slice: every polygon it keeps contains some location, and it keeps no more than the input |
| Selection.PickContaining | load_polygons.py:313-314 | slicing by any ascending index list that holds exactly the containing positions yields the containing polygons in order |
| Selection.PreparePolygons | load_polygons.py:294-326 | fails exactly when one of the two reads fails, with the New Zealand read's error when that read fails and otherwise the Australian read's error; otherwise returns the simplified New Zealand records, and the simplified Australian records that contain a sampling location, minus those with fewer than four points, in order |
| Strings.NatToStringRoundTrip | run_ot_for_sea_spurge_AUtoNZ.py:89 | the decimal rendering of a number reads back as that number |
| Strings.PaddedRoundTrip | batching.py:13 | int() of a zero-padded rendering gives back the number |
| Strings.ParseInt | batching.py:13 | a text parses exactly when it is one or more digits, possibly after a sign, and the sign applies to the digits' value; every other text is rejected |
| Strings.SignedRoundTrip | batching.py:13 | a sign followed by a decimal rendering parses back to the signed number |
| Strings.SecondField | batching.py:13 | the second field exists exactly when the separator occurs; it starts right after the first separator and runs up to the next occurrence, or to the end of the text when there is none |
| Batching.ChunkNumberSplits | batching.py:13 | the chunk number of a directory is int() of the text between the first and second "_chunk_", and there is none when the marker is absent |
| Batching.ChunkDirs | batching.py:4 | every entry kept is a chunk directory of the run, and a listing without one gives none |
| Batching.ChunkDirsMembers | batching.py:4 | an entry is kept if and only if it is in the listing and starts with "<run>_chunk_" |
| Batching.ChunkDirsAppend | batching.py:4 | the filter keeps listing order: filtering two listings in turn is the concatenation of the two filters |
| Batching.NextChunkNumber | batching.py:3-8 | with no chunk directory the scheduler starts at 1 |
| Batching.ScanStops | batching.py:11-25 | the loop stops on a bad number (failing with that directory's name) or on the first incomplete chunk, all chunks before it complete; otherwise all are complete and the result is the maximum number |
| Batching.FirstIncompleteScan | batching.py:12-22 | the first incomplete chunk after complete ones stops the loop with its number |
| Batching.NextIsFirstIncomplete | batching.py:12-22 | the scheduler returns the number of the first incomplete chunk directory in listing order |
| Batching.NextAfterAllComplete | batching.py:24-25 | when every chunk is complete and its number parses, the scheduler succeeds with `max(chunk_numbers) + 1` (1 when there is no chunk directory) |
| Batching.MaxOf | batching.py:25 | Python's `max` of a non-empty list: it bounds every element and is one of them |
| Batching.AllCompleteScan | batching.py:11-25 | a loop over complete chunks whose numbers parse runs to the end and reports the highest number |
| Batching.NextFailsIff | batching.py:12-14 | the scheduler fails if and only if it reaches a directory whose number int() rejects before any incomplete chunk |
| Batching.ScanNumberedRun | batching.py:11-25 | complete chunks numbered consecutively from an offset resume one past the last |
| Chunking.ChunkCountIsCeiling | run_ot_for_sea_spurge_AUtoNZ.py:74-76 | the chunk count is the least number of n-sized chunks covering all release polygons |
| Chunking.Chunks | run_ot_for_sea_spurge_AUtoNZ.py:87-97 | the loop makes exactly chunk-count chunks |
| Chunking.ChunkBounds | run_ot_for_sea_spurge_AUtoNZ.py:93-97 | each chunk holds between one and n polygons, chunk ii being those from position ii*n on |
| Chunking.ChunksPartition | run_ot_for_sea_spurge_AUtoNZ.py:87-97 | the chunks concatenated in loop order are the release polygons: none dropped, duplicated or reordered |
| Chunking.SingleChunk | run_ot_for_sea_spurge_AUtoNZ.py:94-97 | a single release polygon forms the single chunk |
| Chunking.ChunkName | run_ot_for_sea_spurge_AUtoNZ.py:89 | every chunk run name starts with "<base>_chunk_", followed by the digits of ii: at least three of them, with a leading zero only to make up three, and int() reads them back as ii |
| Chunking.ChunkNamesDistinct | run_ot_for_sea_spurge_AUtoNZ.py:89 | chunk run names are equal if and only if the chunk indices are |
| Chunking.ChunkNameRoundTrip | run_ot_for_sea_spurge_AUtoNZ.py:89 | the scheduler reads chunk ii's number back from its run name when the marker occurs in base + "_chunk_" only at its end |
| Chunking.ResumeAfterCompleteRun | batching.py:3-25 | after a run whose chunks are all listed in order and complete, the scheduler resumes at the first index the run did not use |

## Left out

- File reading, JSON parsing, `os.listdir`, `os.path.join`, `print`, and the pickle/dataframe plumbing. Each is replaced by its parsed result.
- The point-to-line distance (simplify_polygons.py:8-32, including its square root) is the parameter `Simplify.DistanceFn`. Properties hold for every distance function.
- The WGS84↔NZTM formulas are the `Loader.Transform` parameters, applied point by point. Shapely's `Polygon.contains` is the `Selection.Containment` parameter.
- Floating point: coordinates, tolerances and distances are exact reals.
  - The closure test `abs(...) < 1e-6` and the tolerances `1000/1e5` and `5000/1e5` are evaluated exactly.
  - `np.ceil(len/n)` is exact ceiling division.
- Simplify.RamerDouglasPeucker: requires a non-negative tolerance, as do Simplify.SimplifyRing, Simplify.SimplifyPolygons and Loader.LoadPolygons. With a negative tolerance the source still returns at once on two points, and on larger ranges it terminates while every range it splits has an interior point at positive distance (then it keeps every point); but a range of three or more points whose interior distances are all at most 0 keeps `max_index` at 0, so `points[max_index:]` is the same range and the recursion reaches Python's recursion limit. The model does not represent that non-termination, so it admits only non-negative tolerances.
- Simplify.SimplifyRing: is not idempotent in one case (`Simplify.ClampReopens`). An open ring that collapses to its chord is clamped to `points[:3]`; when the first and third of those are within 1e-6 but not equal, the clamped ring counts as closed, and a second pass re-closes it with its first point. Simplify.SimplifyRingIdempotent proves idempotence in every other case, and Simplify.SimplifyRingTwiceReopens exhibits the exception. The model keeps the code's behaviour.
- Chunking.ChunkCount: requires at least one polygon per chunk. A zero chunk size is a ZeroDivisionError in the source.
- Loader.OuterRing: a MultiPolygon whose first polygon starts with an empty ring is modelled as a failure.
  - The source then either appends a record with a degenerate point list or raises from numpy, depending on the shapes of the other rings.
  - The bare `IndexError` expression at load_polygons.py:144 raises nothing. The `Loader.Coordinates` datatype has no shape that reaches it.
- Loader.Coordinates: LineString-shaped coordinates (a plain list of positions) under a `Polygon` or `MultiPolygon` type are not modelled. In the source (load_polygons.py:132-149) they reach the no-op `IndexError` branch, after which the loop appends the previous feature's `points` under this feature's name, or raises `UnboundLocalError` when no earlier feature set `points`.
- Loader.Feature: a feature whose `geometry` is `null` is not modelled. The coastal reader (load_polygons.py:120) raises `TypeError` on it.
- Loader.OuterRing: coordinates deeper than a list of lists of rings, and positions with more than two numbers, are not modelled.
- Loader.LoadSamplingLocations: site features have a point geometry or a null one.
  - Features with a missing `properties` key are treated as having neither `code` nor `sample`.
  - A feature with `"properties": null` is not modelled. The source (load_polygons.py:250) then calls `.get` on `None` and raises `AttributeError`.
  - Non-string `code` / `sample` values are not modelled.
- Selection.Containment: the containment test is total. Shapely's `Polygon(...)` constructor (load_polygons.py:285) raises on a ring too short to form a linear ring; that error is not modelled.
- Strings.ParseInt: accepts an optional sign and ASCII digits. Python's `int()` also accepts surrounding whitespace, underscores between digits and non-ASCII digits; those are not modelled.
- Batching.NextChunkNumber: every listed entry is treated as a directory. A plain file that matches the prefix makes the source's inner `os.listdir` raise; that is not modelled.
- Chunking.ChunkNameRoundTrip: requires the base run name to contain the `_chunk_` marker only where the run script appends it. The source splits on the first occurrence.
- The run script never calls `get_next_chunk_number`, and it deletes an existing run directory before starting. Its chunk names start at `000`, while the scheduler answers 1 for an empty directory. The model states how the scheduler reads the script's names (Chunking.ResumeAfterCompleteRun) and does not reconcile the two conventions.
- read_marine_reserve_polygons_from_geojson (load_polygons.py:167-205) is left out: nothing in the modelled pipeline calls it.
- model_wrapper.py, and the rest of run_ot_for_sea_spurge_AUtoNZ.py, are left out. That includes the simulator configuration, `run_AU_to_NZ_model`, directory creation and deletion, and output files; these are simulator I/O.

=== FILE: batching.dfy ===
/** The chunk-resumption scheduler (batching.py): which chunk a batch run
    should (re)start with, decided from a snapshot of its output directory. */
module Batching {
  import opened Wrappers
  import opened Strings

  /** One sub-directory of the output directory: its name and the names of
      the files in it, in listing order. */
  datatype DirEntry = DirEntry(name: string, files: seq<string>)

  /** The text between the run name and the chunk number. */
  const ChunkMarker: string := "_chunk_"

  /** The file the simulator writes when a chunk completes. */
  const CaseInfoSuffix: string := ".caseInfo"

  /** The errors the scheduler lets escape. */
  datatype ChunkError = BadChunkNumber(dirName: string)

  /** `d.startswith(f"{run_name}_chunk_")`. */
  predicate IsChunkDir(runName: string, entry: DirEntry) {
    StartsWith(entry.name, runName + ChunkMarker)
  }

  /** Some file ends in `.caseInfo`. */
  predicate HasCaseInfo(files: seq<string>) {
    exists i :: 0 <= i < |files| && EndsWith(files[i], CaseInfoSuffix)
  }

  /** The chunk run in the directory has finished. */
  predicate IsComplete(entry: DirEntry) {
    HasCaseInfo(entry.files)
  }

  /** `int(d.split("_chunk_")[1])`: the number after the FIRST occurrence of
      the marker; `None` where Python raises. */
  function ChunkNumber(dirName: string): (number: Option<int>) {
    ChunkNumberFrom(dirName, 0)
  }

  /** The chunk number read after the first marker at or after `from`: the
      scan of `str.split`, one position at a time. */
  function ChunkNumberFrom(dirName: string, from: nat): (number: Option<int>)
    decreases |dirName| - from
  {
    if from + |ChunkMarker| > |dirName| then None
    else if OccursAt(dirName, ChunkMarker, from) then ParseInt(FieldFrom(dirName, ChunkMarker, from + |ChunkMarker|))
    else ChunkNumberFrom(dirName, from + 1)
  }

  /** The scan reads the number `int()` makes of the second field of
      `split("_chunk_")`, and fails exactly where there is none. */
  lemma ChunkNumberSplits(dirName: string)
    ensures var field := SecondField(dirName, ChunkMarker);
      ChunkNumber(dirName) == if field.Some? then ParseInt(field.value) else None
  {
    ChunkNumberScan(dirName, 0);
  }

  lemma {:induction false} ChunkNumberScan(dirName: string, from: nat)
    requires from <= |dirName|
    ensures var first := FindFrom(dirName, ChunkMarker, from);
      ChunkNumberFrom(dirName, from)
        == if first.Some? then ParseInt(FieldFrom(dirName, ChunkMarker, first.value + |ChunkMarker|)) else None
    decreases |dirName| - from
  {
    var first := FindFrom(dirName, ChunkMarker, from);
    if from + |ChunkMarker| > |dirName| {
      assert first.None?;
    } else if OccursAt(dirName, ChunkMarker, from) {
      assert first == Some(from);
    } else {
      assert first == FindFrom(dirName, ChunkMarker, from + 1);
      assert ChunkNumberFrom(dirName, from) == ChunkNumberFrom(dirName, from + 1);
      ChunkNumberScan(dirName, from + 1);
    }
  }

  /** The chunk directories, in listing order. */
  function ChunkDirs(listing: seq<DirEntry>, runName: string): (r: seq<DirEntry>)
    ensures |r| <= |listing|
    ensures forall k :: 0 <= k < |r| ==> IsChunkDir(runName, r[k])
    ensures (forall i :: 0 <= i < |listing| ==> !IsChunkDir(runName, listing[i])) ==> r == []
  {
    if |listing| == 0 then []
    else (if IsChunkDir(runName, listing[0]) then [listing[0]] else []) + ChunkDirs(listing[1..], runName)
  }

  /** What the loop reads from one chunk directory: its name, the number
      parsed from the name, and whether it is complete. */
  datatype Observation = Observation(name: string, number: Option<int>, complete: bool)

  function Observe(entry: DirEntry): (seen: Observation) {
    Observation(entry.name, ChunkNumber(entry.name), IsComplete(entry))
  }

  /** The observations of the chunk directories, in listing order. */
  function Observations(dirs: seq<DirEntry>): (obs: seq<Observation>)
    ensures |obs| == |dirs|
  {
    if |dirs| == 0 then [] else [Observe(dirs[0])] + Observations(dirs[1..])
  }

  /** The `k`-th observation is that of the `k`-th directory. */
  lemma {:induction false} ObservationsAt(dirs: seq<DirEntry>, k: nat)
    requires k < |dirs|
    ensures Observations(dirs)[k] == Observe(dirs[k])
  {
    if k > 0 {
      ObservationsAt(dirs[1..], k - 1);
    }
  }

  /** Where the loop over the chunk directories stops: at an incomplete
      chunk, or after all of them, all complete, with the highest number. */
  datatype Scan = Incomplete(number: int) | AllComplete(highest: int)

  /** The loop of `get_next_chunk_number` over non-empty `obs`. */
  function ScanChunks(obs: seq<Observation>): (r: Result<Scan, ChunkError>)
    requires |obs| > 0
    decreases |obs|
  {
    match obs[0].number
    case None => Failure(BadChunkNumber(obs[0].name))
    case Some(n) =>
      if !obs[0].complete then Success(Incomplete(n))
      else if |obs| == 1 then Success(AllComplete(n))
      else
        match ScanChunks(obs[1..])
        case Failure(e) => Failure(e)
        case Success(Incomplete(m)) => Success(Incomplete(m))
        case Success(AllComplete(m)) => Success(AllComplete(if n > m then n else m))
  }

  /** `get_next_chunk_number(base_dir, run_name)` over the snapshot
      `listing` of `base_dir`. */
  function NextChunkNumber(listing: seq<DirEntry>, runName: string): (r: Result<int, ChunkError>)
    ensures (forall i :: 0 <= i < |listing| ==> !IsChunkDir(runName, listing[i])) ==> r == Success(1)
  {
    var dirs := ChunkDirs(listing, runName);
    if |dirs| == 0 then Success(1) else Resume(ScanChunks(Observations(dirs)))
  }

  /** The number returned once the loop has stopped: the incomplete chunk,
      or one past the highest complete one. */
  function Resume(scan: Result<Scan, ChunkError>): (next: Result<int, ChunkError>) {
    match scan
    case Failure(e) => Failure(e)
    case Success(Incomplete(n)) => Success(n)
    case Success(AllComplete(m)) => Success(m + 1)
  }

  /** Every chunk directory before position `i` has a number and is
      complete. */
  predicate CompleteBefore(obs: seq<Observation>, i: nat)
    requires i <= |obs|
  {
    forall j :: 0 <= j < i ==> obs[j].number.Some? && obs[j].complete
  }

  /** The scan stops at the first directory whose number does not parse or
      that is incomplete; it fails in the first case, naming that directory. */
  lemma {:induction false} ScanStops(obs: seq<Observation>)
    requires |obs| > 0
    ensures var r := ScanChunks(obs);
      && (r.Failure? ==>
            exists i :: 0 <= i < |obs| && CompleteBefore(obs, i) && obs[i].number.None?
                        && r.error == BadChunkNumber(obs[i].name))
      && (r.Success? && r.value.Incomplete? ==>
            exists i :: 0 <= i < |obs| && CompleteBefore(obs, i)
                        && obs[i].number == Some(r.value.number) && !obs[i].complete)
      && (r.Success? && r.value.AllComplete? ==>
            && CompleteBefore(obs, |obs|)
            && (forall j :: 0 <= j < |obs| ==> obs[j].number.value <= r.value.highest)
            && (exists j :: 0 <= j < |obs| && obs[j].number == Some(r.value.highest)))
    decreases |obs|
  {
    var r := ScanChunks(obs);
    var n := obs[0].number;
    if n.None? {
      assert CompleteBefore(obs, 0);
    } else if !obs[0].complete {
      assert CompleteBefore(obs, 0);
    } else if |obs| == 1 {
      assert CompleteBefore(obs, 1);
    } else {
      var tail := obs[1..];
      ScanStops(tail);
      var rt := ScanChunks(tail);
      if rt.Failure? {
        var i :| 0 <= i < |tail| && CompleteBefore(tail, i) && tail[i].number.None?
                 && rt.error == BadChunkNumber(tail[i].name);
        ShiftCompleteBefore(obs, i);
      } else if rt.value.Incomplete? {
        var i :| 0 <= i < |tail| && CompleteBefore(tail, i)
                 && tail[i].number == Some(rt.value.number) && !tail[i].complete;
        ShiftCompleteBefore(obs, i);
      } else {
        ShiftCompleteBefore(obs, |tail|);
        var m := rt.value.highest;
        var j :| 0 <= j < |tail| && tail[j].number == Some(m);
        assert tail[j] == obs[j + 1];
        forall k | 0 <= k < |obs| ensures obs[k].number.value <= r.value.highest {
          if k > 0 {
            assert obs[k] == tail[k - 1];
          }
        }
      }
    }
  }

  /** `CompleteBefore` of the tail, shifted by the complete first directory. */
  lemma {:induction false} ShiftCompleteBefore(obs: seq<Observation>, i: nat)
    requires 0 < |obs| && i < |obs|
    requires obs[0].number.Some? && obs[0].complete
    requires CompleteBefore(obs[1..], i)
    ensures CompleteBefore(obs, i + 1)
  {
    forall j | 0 <= j < i + 1 ensures obs[j].number.Some? && obs[j].complete {
      if j > 0 {
        assert obs[j] == obs[1..][j - 1];
      }
    }
  }

  /** Python's `max` of a non-empty list: an element that bounds every
      element. */
  function MaxOf(xs: seq<int>): (m: int)
    requires |xs| > 0
    ensures forall k :: 0 <= k < |xs| ==> xs[k] <= m
    ensures exists k :: 0 <= k < |xs| && xs[k] == m
  {
    if |xs| == 1 then xs[0]
    else
      var rest := MaxOf(xs[1..]);
      assert forall k :: 1 <= k < |xs| ==> xs[k] == xs[1..][k - 1];
      if xs[0] >= rest then xs[0] else rest
  }

  /** `chunk_numbers` once the loop has passed every chunk directory. */
  function ChunkNumbers(obs: seq<Observation>): (numbers: seq<int>)
    requires CompleteBefore(obs, |obs|)
    ensures |numbers| == |obs|
    ensures forall k :: 0 <= k < |obs| ==> obs[k].number == Some(numbers[k])
  {
    seq(|obs|, k requires 0 <= k < |obs| => obs[k].number.value)
  }

  /** When every chunk directory is complete and its number parses, the
      scheduler succeeds with `max(chunk_numbers) + 1`. */
  lemma {:induction false} NextAfterAllComplete(listing: seq<DirEntry>, runName: string)
    requires var obs := Observations(ChunkDirs(listing, runName)); CompleteBefore(obs, |obs|)
    ensures var obs := Observations(ChunkDirs(listing, runName));
      NextChunkNumber(listing, runName) == if |obs| == 0 then Success(1) else Success(MaxOf(ChunkNumbers(obs)) + 1)
  {
    var dirs := ChunkDirs(listing, runName);
    var obs, next := Observations(dirs), NextChunkNumber(listing, runName);
    if |obs| > 0 {
      var scan, m := ScanChunks(obs), MaxOf(ChunkNumbers(obs));
      ResumeAllComplete(obs);
      NextOfScan(listing, runName);
      assert next == Resume(scan) == Success(m + 1);
    } else {
      assert |dirs| == 0 && next == Success(1);
    }
  }

  /** Resuming after a scan over complete directories whose numbers parse
      gives one past the highest number. */
  lemma ResumeAllComplete(obs: seq<Observation>)
    requires |obs| > 0 && CompleteBefore(obs, |obs|)
    ensures Resume(ScanChunks(obs)) == Success(MaxOf(ChunkNumbers(obs)) + 1)
  {
    var scan, m := ScanChunks(obs), MaxOf(ChunkNumbers(obs));
    AllCompleteScan(obs);
    assert scan == Success(AllComplete(m));
    assert Resume(scan) == Success(m + 1);
  }

  /** With some chunk directory listed, the result is the one the scan over
      their observations resumes at. */
  lemma NextOfScan(listing: seq<DirEntry>, runName: string)
    requires |ChunkDirs(listing, runName)| > 0
    ensures NextChunkNumber(listing, runName) == Resume(ScanChunks(Observations(ChunkDirs(listing, runName))))
  {
  }

  /** A scan over complete directories whose numbers parse runs to the end
      and reports the highest number. */
  lemma {:induction false} AllCompleteScan(obs: seq<Observation>)
    requires |obs| > 0 && CompleteBefore(obs, |obs|)
    ensures ScanChunks(obs) == Success(AllComplete(MaxOf(ChunkNumbers(obs))))
    decreases |obs|
  {
    var xs := ChunkNumbers(obs);
    if |obs| > 1 {
      var tail := obs[1..];
      assert CompleteBefore(tail, |tail|) by {
        forall j | 0 <= j < |tail| ensures tail[j].number.Some? && tail[j].complete {
          assert tail[j] == obs[j + 1];
        }
      }
      AllCompleteScan(tail);
      assert xs[1..] == ChunkNumbers(tail);
      var n, m := xs[0], MaxOf(xs[1..]);
      assert obs[0].number == Some(n) && obs[0].complete;
      assert ScanChunks(obs) == Success(AllComplete(if n > m then n else m));
      assert MaxOf(xs) == if n >= m then n else m;
    }
  }

  /** The first incomplete chunk directory, after only complete ones with
      valid numbers, decides the result. */
  lemma {:induction false} NextIsFirstIncomplete(listing: seq<DirEntry>, runName: string, i: nat)
    requires var obs := Observations(ChunkDirs(listing, runName));
      && i < |obs| && CompleteBefore(obs, i)
      && obs[i].number.Some? && !obs[i].complete
    ensures var obs := Observations(ChunkDirs(listing, runName));
      NextChunkNumber(listing, runName) == Success(obs[i].number.value)
  {
    var dirs := ChunkDirs(listing, runName);
    var obs := Observations(dirs);
    FirstIncompleteScan(obs, i);
  }

  lemma {:induction false} FirstIncompleteScan(obs: seq<Observation>, i: nat)
    requires i < |obs| && CompleteBefore(obs, i)
    requires obs[i].number.Some? && !obs[i].complete
    ensures ScanChunks(obs) == Success(Incomplete(obs[i].number.value))
    decreases i
  {
    if i > 0 {
      var tail := obs[1..];
      assert CompleteBefore(tail, i - 1) by {
        forall j | 0 <= j < i - 1 ensures tail[j].number.Some? && tail[j].complete {
          assert tail[j] == obs[j + 1];
        }
      }
      assert tail[i - 1] == obs[i];
      FirstIncompleteScan(tail, i - 1);
    }
  }

  /** A directory whose number does not parse, reached after only complete
      directories, makes the scan fail. */
  lemma {:induction false} FirstBadScan(obs: seq<Observation>, i: nat)
    requires i < |obs| && CompleteBefore(obs, i) && obs[i].number.None?
    ensures ScanChunks(obs).Failure?
    decreases i
  {
    if i > 0 {
      var tail := obs[1..];
      assert CompleteBefore(tail, i - 1) by {
        forall j | 0 <= j < i - 1 ensures tail[j].number.Some? && tail[j].complete {
          assert tail[j] == obs[j + 1];
        }
      }
      assert tail[i - 1] == obs[i];
      FirstBadScan(tail, i - 1);
    }
  }

  /** `get_next_chunk_number` raises exactly when the loop reaches a chunk
      directory whose number does not parse before any incomplete one. */
  lemma {:induction false} NextFailsIff(listing: seq<DirEntry>, runName: string)
    ensures var obs := Observations(ChunkDirs(listing, runName));
      NextChunkNumber(listing, runName).Failure? <==>
        exists i :: 0 <= i < |obs| && CompleteBefore(obs, i) && obs[i].number.None?
  {
    var obs := Observations(ChunkDirs(listing, runName));
    if |obs| > 0 {
      ScanStops(obs);
      if exists i :: 0 <= i < |obs| && CompleteBefore(obs, i) && obs[i].number.None? {
        var i :| 0 <= i < |obs| && CompleteBefore(obs, i) && obs[i].number.None?;
        FirstBadScan(obs, i);
      }
    }
  }

  /** The chunk directories are exactly the entries of the listing that
      start with the run name and the marker. */
  lemma {:induction false} ChunkDirsMembers(listing: seq<DirEntry>, runName: string)
    ensures forall e :: e in ChunkDirs(listing, runName) <==> e in listing && IsChunkDir(runName, e)
  {
    if |listing| > 0 {
      ChunkDirsMembers(listing[1..], runName);
      assert listing == [listing[0]] + listing[1..];
    }
  }

  /** A listing of chunk directories only is its own chunk listing. */
  lemma {:induction false} ChunkDirsAll(listing: seq<DirEntry>, runName: string)
    requires forall i :: 0 <= i < |listing| ==> IsChunkDir(runName, listing[i])
    ensures ChunkDirs(listing, runName) == listing
  {
    if |listing| > 0 {
      ChunkDirsAll(listing[1..], runName);
      assert listing == [listing[0]] + listing[1..];
    }
  }

  /** The filter keeps listing order: the chunk directories of two listings
      in turn are those of the first followed by those of the second. */
  lemma {:induction false} ChunkDirsAppend(a: seq<DirEntry>, b: seq<DirEntry>, runName: string)
    ensures ChunkDirs(a + b, runName) == ChunkDirs(a, runName) + ChunkDirs(b, runName)
    decreases |a|
  {
    if |a| > 0 {
      var head := if IsChunkDir(runName, a[0]) then [a[0]] else [];
      assert (a + b)[0] == a[0] && (a + b)[1..] == a[1..] + b;
      assert ChunkDirs(a + b, runName) == head + ChunkDirs(a[1..] + b, runName);
      ChunkDirsAppend(a[1..], b, runName);
      assert ChunkDirs(a, runName) == head + ChunkDirs(a[1..], runName);
    } else {
      assert a + b == b;
    }
  }

  /** Complete directories numbered `offset`, `offset + 1`, ... in listing
      order scan to the last of those numbers. */
  lemma {:induction false} ScanNumberedRun(obs: seq<Observation>, offset: int)
    requires |obs| > 0
    requires forall j :: 0 <= j < |obs| ==> obs[j].number == Some(offset + j) && obs[j].complete
    ensures ScanChunks(obs) == Success(AllComplete(offset + |obs| - 1))
    ensures Resume(ScanChunks(obs)) == Success(offset + |obs|)
    decreases |obs|
  {
    assert obs[0].number == Some(offset) && obs[0].complete;
    if |obs| > 1 {
      var tail := obs[1..];
      forall j | 0 <= j < |tail| ensures tail[j].number == Some(offset + 1 + j) && tail[j].complete {
        assert tail[j] == obs[j + 1];
      }
      ScanNumberedRun(tail, offset + 1);
    }
  }

  /** On a listing of chunk directories only, the result is the one the
      scan over all of them resumes at. */
  lemma {:induction false} NextOfChunkListing(listing: seq<DirEntry>, runName: string)
    requires |listing| > 0 && ChunkDirs(listing, runName) == listing
    ensures NextChunkNumber(listing, runName) == Resume(ScanChunks(Observations(listing)))
  {
    assert Observations(ChunkDirs(listing, runName)) == Observations(listing);
  }
}

=== FILE: chunking.dfy ===
/** The chunk bookkeeping of the AU-to-NZ run script
    (run_ot_for_sea_spurge_AUtoNZ.py): how many chunks the release polygons
    are split into, which polygons each chunk holds, and what each chunk's
    run is called. */
module Chunking {
  import opened Wrappers
  import opened Strings
  import Batching
  import opened Indices

  /** `np.ceil(len(release_polygons) / n).astype(int)`, in exact arithmetic. */
  function ChunkCount(total: nat, n: nat): (count: nat)
    requires n >= 1
  {
    (total + n - 1) / n
  }

  /** The chunk count is the least number of `n`-sized chunks that cover
      `total` items. */
  lemma ChunkCountIsCeiling(total: nat, n: nat)
    requires n >= 1
    ensures ChunkCount(total, n) * n >= total
    ensures ChunkCount(total, n) == 0 || (ChunkCount(total, n) - 1) * n < total
  {
    var c := ChunkCount(total, n);
    var q, r := (total + n - 1) / n, (total + n - 1) % n;
    assert total + n - 1 == q * n + r;
    if c > 0 {
      assert (c - 1) * n == c * n - n;
    }
  }

  function Min(a: nat, b: nat): (m: nat)
    ensures m <= a && m <= b && (m == a || m == b)
  {
    if a <= b then a else b
  }

  /** `release_polygons[ii * n : (ii + 1) * n]` (Python clamps both bounds to
      the length), or the whole list when it has at most one polygon. */
  function Chunk<T>(xs: seq<T>, n: nat, ii: nat): (chunk: seq<T>)
    requires n >= 1
  {
    if |xs| > 1 then xs[Min(ii * n, |xs|)..Min((ii + 1) * n, |xs|)] else xs
  }

  /** The chunks of the loop `for ii_chunk in range(number_of_chunks)`. */
  function Chunks<T>(xs: seq<T>, n: nat): (chunks: seq<seq<T>>)
    requires n >= 1
    ensures |chunks| == ChunkCount(|xs|, n)
  {
    seq(ChunkCount(|xs|, n), ii requires 0 <= ii < ChunkCount(|xs|, n) => Chunk(xs, n, ii))
  }

  /** Each chunk holds between one and `n` polygons; chunk `ii` holds the
      polygons from position `ii * n` on. */
  lemma ChunkBounds<T>(xs: seq<T>, n: nat, ii: nat)
    requires n >= 1 && ii < ChunkCount(|xs|, n)
    ensures var chunk := Chunks(xs, n)[ii];
      && 1 <= |chunk| <= n
      && ii * n < |xs|
      && forall j :: 0 <= j < |chunk| ==> chunk[j] == xs[ii * n + j]
  {
    ChunkCountIsCeiling(|xs|, n);
    assert ii * n <= (ChunkCount(|xs|, n) - 1) * n by {
      MulMonotone(ii, ChunkCount(|xs|, n) - 1, n);
    }
    assert (ii + 1) * n == ii * n + n;
    if |xs| <= 1 {
      assert ii == 0;
    }
  }

  lemma MulMonotone(a: nat, b: nat, n: nat)
    requires a <= b
    ensures a * n <= b * n
  {
  }

  /** Concatenating the chunks in loop order gives back the release polygons:
      none is dropped, duplicated or reordered. */
  lemma ChunksPartition<T>(xs: seq<T>, n: nat)
    requires n >= 1
    ensures Concat(Chunks(xs, n)) == xs
  {
    var chunks := Chunks(xs, n);
    var c := |chunks|;
    ChunkCountIsCeiling(|xs|, n);
    if |xs| <= 1 {
      if |xs| == 0 {
        assert c == 0;
      } else {
        assert c == 1 && chunks[0] == xs;
        assert chunks[..0] == [];
      }
    } else {
      ChunksPrefix(xs, n, c);
      assert chunks[..c] == chunks;
      assert Min(c * n, |xs|) == |xs|;
    }
  }

  /** The first `k` chunks cover the first `k * n` polygons. */
  lemma {:induction false} ChunksPrefix<T>(xs: seq<T>, n: nat, k: nat)
    requires n >= 1 && |xs| > 1 && k <= ChunkCount(|xs|, n)
    ensures Concat(Chunks(xs, n)[..k]) == xs[..Min(k * n, |xs|)]
    decreases k
  {
    var chunks := Chunks(xs, n);
    if k > 0 {
      ChunksPrefix(xs, n, k - 1);
      assert chunks[..k][..k - 1] == chunks[..k - 1];
      assert Concat(chunks[..k]) == Concat(chunks[..k - 1]) + chunks[k - 1];
      ChunkAt(xs, n, k - 1);
      var lo, hi := (k - 1) * n, Min(k * n, |xs|);
      assert chunks[k - 1] == xs[lo..hi];
      assert xs[..lo] + xs[lo..hi] == xs[..hi];
    }
  }

  /** Chunk `ii` of a list of several polygons is the slice from `ii * n`,
      which lies inside the list, to `(ii + 1) * n` clamped to its length. */
  lemma ChunkAt<T>(xs: seq<T>, n: nat, ii: nat)
    requires n >= 1 && |xs| > 1 && ii < ChunkCount(|xs|, n)
    ensures ii * n < |xs| && (ii + 1) * n == ii * n + n
    ensures Min(ii * n, |xs|) == ii * n
    ensures Chunks(xs, n)[ii] == xs[ii * n..Min((ii + 1) * n, |xs|)]
  {
    ChunkCountIsCeiling(|xs|, n);
    MulMonotone(ii, ChunkCount(|xs|, n) - 1, n);
  }

  /** With a single release polygon the only chunk is the whole list. */
  lemma SingleChunk<T>(xs: seq<T>, n: nat)
    requires n >= 1 && |xs| == 1
    ensures Chunks(xs, n) == [xs]
  {
  }

  /** The zero-padded width of the chunk number. */
  const ChunkNumberWidth: nat := 3

  /** `f"{base_run_name}_chunk_{ii_chunk:03d}"`: after the marker come the
      digits of `ii`, at least three of them, with leading zeros only to
      reach three. */
  function ChunkName(base: string, ii: nat): (name: string)
    ensures StartsWith(name, base + Batching.ChunkMarker)
    ensures var d := name[|base + Batching.ChunkMarker|..];
      && AllDigits(d) && |d| >= 3 && (|d| == 3 || d[0] != '0')
      && ParseInt(d) == Some(ii)
  {
    var prefix := base + Batching.ChunkMarker;
    var s := NatToString(ii);
    var d := ZeroPad(s, ChunkNumberWidth);
    var name := prefix + d;
    assert name[..|prefix|] == prefix;
    assert name[|prefix|..] == d;
    assert |d| > 3 ==> d == s;
    PaddedRoundTrip(ii, ChunkNumberWidth);
    name
  }

  /** Distinct chunk indices give distinct run names. */
  lemma ChunkNamesDistinct(base: string, i: nat, j: nat)
    ensures ChunkName(base, i) == ChunkName(base, j) <==> i == j
  {
    if ChunkName(base, i) == ChunkName(base, j) {
      var prefix := base + Batching.ChunkMarker;
      var a, b := ZeroPad(NatToString(i), ChunkNumberWidth), ZeroPad(NatToString(j), ChunkNumberWidth);
      assert (prefix + a)[|prefix|..] == a;
      assert (prefix + b)[|prefix|..] == b;
      PaddedRoundTrip(i, ChunkNumberWidth);
      PaddedRoundTrip(j, ChunkNumberWidth);
    }
  }

  /** The marker occurs in `base + "_chunk_"` only at its end: `base`
      neither contains it nor ends with a part of it that completes it. */
  predicate MarkerOnlyAtEnd(base: string) {
    forall i :: 0 <= i < |base| ==> !OccursAt(base + Batching.ChunkMarker, Batching.ChunkMarker, i)
  }

  /** For a base name in which the marker occurs only at its end, the
      scheduler reads back the chunk index from the run name. */
  lemma ChunkNameRoundTrip(base: string, ii: nat)
    requires MarkerOnlyAtEnd(base)
    ensures Batching.ChunkNumber(ChunkName(base, ii)) == Some(ii)
  {
    var m := Batching.ChunkMarker;
    var digits := ZeroPad(NatToString(ii), ChunkNumberWidth);
    var s := base + m + digits;
    assert s == ChunkName(base, ii);
    MarkerFirstAtEnd(base, digits);
    DigitsHoldNoMarker(base + m, digits);
    assert s[|base| + |m|..] == digits;
    assert SecondField(s, m) == Some(digits);
    Batching.ChunkNumberSplits(s);
    PaddedRoundTrip(ii, ChunkNumberWidth);
  }

  /** The first marker of a run name is the one the run script put there. */
  lemma MarkerFirstAtEnd(base: string, digits: string)
    requires MarkerOnlyAtEnd(base)
    ensures FindFrom(base + Batching.ChunkMarker + digits, Batching.ChunkMarker, 0) == Some(|base|)
  {
    var m := Batching.ChunkMarker;
    var s := base + m + digits;
    assert OccursAt(s, m, |base|) by {
      assert s[|base|..|base| + |m|] == m;
    }
    forall i | 0 <= i < |base| ensures !OccursAt(s, m, i) {
      assert !OccursAt(base + m, m, i);
      assert s[i..i + |m|] == (base + m)[i..i + |m|];
    }
  }

  /** No marker starts inside a run of digits at the end of a name. */
  lemma DigitsHoldNoMarker(prefix: string, digits: string)
    requires AllDigits(digits)
    ensures FindFrom(prefix + digits, Batching.ChunkMarker, |prefix|).None?
  {
    var m := Batching.ChunkMarker;
    var s := prefix + digits;
    var start := |prefix|;
    forall i | start <= i ensures !OccursAt(s, m, i) {
      if i + |m| <= |s| {
        assert s[i] == digits[i - start];
        assert IsDigit(s[i..i + |m|][0]);
      }
    }
  }

  /** The output directory after a finished run: entry `i` is the directory
      of chunk `i`, named by the run script, and its simulation completed. */
  predicate FinishedRun(base: string, listing: seq<Batching.DirEntry>) {
    forall i {:trigger ChunkName(base, i)} :: 0 <= i < |listing| ==>
      listing[i].name == ChunkName(base, i) && Batching.HasCaseInfo(listing[i].files)
  }

  /** Resuming after a run whose chunks all completed starts at the first
      chunk index the run script did not use. */
  lemma {:induction false} ResumeAfterCompleteRun(base: string, listing: seq<Batching.DirEntry>)
    requires MarkerOnlyAtEnd(base) && |listing| >= 1 && FinishedRun(base, listing)
    ensures Batching.NextChunkNumber(listing, base) == Success(|listing|)
  {
    FinishedRunScan(base, listing);
    Batching.ScanNumberedRun(Batching.Observations(listing), 0);
    Batching.NextOfChunkListing(listing, base);
  }

  /** What the scheduler reads from a finished run: only chunk directories,
      chunk `i` numbered `i` and complete. */
  lemma {:induction false} FinishedRunScan(base: string, listing: seq<Batching.DirEntry>)
    requires MarkerOnlyAtEnd(base) && FinishedRun(base, listing)
    ensures Batching.ChunkDirs(listing, base) == listing
    ensures forall j :: 0 <= j < |listing| ==> Batching.Observations(listing)[j].number == Some(0 + j)
    ensures forall j :: 0 <= j < |listing| ==> Batching.Observations(listing)[j].complete
  {
    forall i | 0 <= i < |listing|
      ensures Batching.IsChunkDir(base, listing[i])
      ensures Batching.Observations(listing)[i].number == Some(0 + i)
      ensures Batching.Observations(listing)[i].complete
    {
      assert listing[i].name == ChunkName(base, i);
      ObserveChunk(base, i, listing[i].files);
      Batching.ObservationsAt(listing, i);
      assert listing[i] == Batching.DirEntry(ChunkName(base, i), listing[i].files);
    }
    Batching.ChunkDirsAll(listing, base);
  }

  /** What the scheduler reads from the directory of chunk `ii`. */
  lemma {:induction false} ObserveChunk(base: string, ii: nat, files: seq<string>)
    requires MarkerOnlyAtEnd(base) && Batching.HasCaseInfo(files)
    ensures var entry := Batching.DirEntry(ChunkName(base, ii), files);
      && Batching.IsChunkDir(base, entry)
      && Batching.Observe(entry) == Batching.Observation(entry.name, Some(ii), true)
  {
    ChunkNameRoundTrip(base, ii);
  }
}

=== FILE: geometry.dfy ===
/** The records the polygon pipeline passes between its stages. */
module Geometry {

  /** A vertex `[x, y]`: longitude/latitude in WGS84 or easting/northing in NZTM. */
  datatype Point = Point(x: real, y: real)

  /** A release or catch polygon, `{name, points}`: the ring as an ordered
      vertex sequence, explicitly closed or not. */
  datatype Polygon = Polygon(name: string, points: seq<Point>)

  /** A sample site, `{name, coordinates}`, used only as a containment probe. */
  datatype SamplingLocation = SamplingLocation(name: string, coordinates: Point)

  /** Python's `points[-1]`. */
  function Last<T>(s: seq<T>): (last: T)
    requires |s| > 0
  {
    s[|s| - 1]
  }
}

=== FILE: indices.dfy ===
/** Index sequences: the positions a filter or a simplification keeps; and
    the concatenation of a sequence of sequences. */
module Indices {

  /** Strictly ascending, stated on neighbours. */
  predicate Increasing(ks: seq<nat>) {
    forall t :: 0 <= t < |ks| - 1 ==> Ascends(ks, t)
  }

  predicate Ascends(ks: seq<nat>, t: nat)
    requires t + 1 < |ks|
  {
    ks[t] < ks[t + 1]
  }

  /** Ascending neighbours make the whole sequence ascending. */
  lemma {:induction false} IncreasingBetween(ks: seq<nat>, a: nat, b: nat)
    requires Increasing(ks) && a < b < |ks|
    ensures ks[a] < ks[b]
    decreases b - a
  {
    assert Ascends(ks, a);
    if a + 1 < b {
      IncreasingBetween(ks, a + 1, b);
    }
  }

  /** A smaller index in front of an ascending sequence keeps it ascending. */
  lemma {:induction false} IncreasingCons(first: nat, ks: seq<nat>)
    requires Increasing(ks)
    requires forall k :: 0 <= k < |ks| ==> first < ks[k]
    ensures Increasing([first] + ks)
  {
    var all := [first] + ks;
    forall t | 0 <= t < |all| - 1 ensures Ascends(all, t) {
      if t > 0 {
        assert Ascends(ks, t - 1);
      }
    }
  }

  /** Dropping the first index keeps a sequence ascending. */
  lemma {:induction false} IncreasingTail(ks: seq<nat>)
    requires Increasing(ks) && |ks| > 0
    ensures Increasing(ks[1..])
  {
    forall t | 0 <= t < |ks| - 2 ensures Ascends(ks[1..], t) {
      assert Ascends(ks, t + 1);
    }
  }

  /** Indices that all lie in `[lo, hi)` exist only when that range is
      non-empty. */
  lemma {:induction false} WithinRange(ks: seq<nat>, lo: nat, hi: nat)
    requires forall k :: 0 <= k < |ks| ==> lo <= ks[k] < hi
    ensures |ks| == 0 || lo < hi
  {
    if |ks| > 0 {
      assert lo <= ks[0] < hi;
    }
  }

  /** The positions, from `from` on, of the elements of `s` that `keep`
      accepts, in ascending order. */
  function Positions<T>(s: seq<T>, keep: T -> bool, from: nat): (ks: seq<nat>)
    requires from <= |s|
    ensures forall k :: 0 <= k < |ks| ==> from <= ks[k] < |s| && keep(s[ks[k]])
    ensures Increasing(ks)
    decreases |s| - from
  {
    if from == |s| then []
    else if keep(s[from]) then
      var rest := Positions(s, keep, from + 1);
      IncreasingCons(from, rest);
      [from] + rest
    else Positions(s, keep, from + 1)
  }

  /** Every accepted element from `from` on is listed. */
  lemma {:induction false} PositionsComplete<T>(s: seq<T>, keep: T -> bool, from: nat, i: nat)
    requires from <= i < |s| && keep(s[i])
    ensures i in Positions(s, keep, from)
    decreases |s| - from
  {
    if from < i {
      PositionsComplete(s, keep, from + 1, i);
    }
  }

  /** The concatenation of a sequence of sequences, in order. */
  function Concat<T>(parts: seq<seq<T>>): (all: seq<T>)
  {
    if |parts| == 0 then [] else Concat(parts[..|parts| - 1]) + parts[|parts| - 1]
  }

  /** Every element of every part is in the concatenation. */
  lemma {:induction false} ConcatContains<T>(parts: seq<seq<T>>, j: nat, i: nat)
    requires j < |parts| && i < |parts[j]|
    ensures parts[j][i] in Concat(parts)
    decreases |parts|
  {
    var init := parts[..|parts| - 1];
    if j < |parts| - 1 {
      assert init[j] == parts[j];
      ConcatContains(init, j, i);
    }
  }
}

=== FILE: loader.dfy ===
/** Polygon ingestion (load_polygons.py): GeoJSON features become
    `{name, points}` records, records are re-projected and optionally
    simplified, dataframe rows become catch polygons, and sampling-site
    features become named probe points. File reading and JSON parsing are
    replaced by their parsed results; the two projection formulas are
    parameters. */
module Loader {
  import opened Wrappers
  import opened Geometry
  import opened Strings
  import opened Indices
  import Simplify

  /** A GeoJSON `coordinates` value, by nesting depth: a position `[x, y]`,
      a list of rings (Polygon-shaped) or a list of lists of rings
      (MultiPolygon-shaped). The shape need not agree with the feature's
      declared type. */
  datatype Coordinates =
    | Position(position: Point)
    | Rings(rings: seq<seq<Point>>)
    | RingLists(polygons: seq<seq<seq<Point>>>)

  /** A feature's `geometry`: its `type` string and its `coordinates`. */
  datatype Feature = Feature(kind: string, coordinates: Coordinates)

  /** One entry of the file list, with the file's parsed `features`. */
  datatype GeoJsonFile = GeoJsonFile(longName: string, features: seq<Feature>)

  /** The exceptions the loader lets escape. */
  datatype LoadError =
    | MalformedCoordinates(longName: string, index: nat)
    | UnsupportedProjection(source: string, target: string)

  /** The outcome of looking up the outer ring: a ring of points, a missing
      ring (the `IndexError` the loader catches: the feature is skipped), or
      coordinates the lookup cannot index (an exception that escapes). */
  datatype RingLookup = Ring(points: seq<Point>) | Missing | Malformed

  predicate IsPolygonKind(kind: string) {
    kind == "Polygon" || kind == "MultiPolygon"
  }

  /** The shape test of the loader: `coordinates[0][0]` when that is a list
      of points (MultiPolygon-shaped), otherwise `coordinates[0]` when that
      is one (Polygon-shaped). */
  function OuterRing(c: Coordinates): (r: RingLookup)
    ensures r.Ring? ==> |r.points| > 0
    ensures r.Ring? && c.Rings? ==> |c.rings| > 0 && r.points == c.rings[0]
    ensures r.Ring? && c.RingLists? ==> |c.polygons| > 0 && |c.polygons[0]| > 0 && r.points == c.polygons[0][0]
    ensures c.Rings? ==> (r.Ring? <==> |c.rings| > 0 && |c.rings[0]| > 0)
    ensures c.Rings? && (|c.rings| == 0 || |c.rings[0]| == 0) ==> r.Missing?
    ensures c.RingLists? ==> (r.Ring? <==> |c.polygons| > 0 && |c.polygons[0]| > 0 && |c.polygons[0][0]| > 0)
    ensures c.RingLists? && (|c.polygons| == 0 || |c.polygons[0]| == 0) ==> r.Missing?
    ensures c.Position? ==> r.Malformed?
  {
    match c
    case Position(_) =>
      // `coordinates[0][0]` subscripts a number: a TypeError, not caught
      Malformed
    case Rings(rings) =>
      if |rings| == 0 || |rings[0]| == 0 then Missing else Ring(rings[0])
    case RingLists(polygons) =>
      if |polygons| == 0 || |polygons[0]| == 0 then Missing
      else if |polygons[0][0]| == 0 then Malformed
      else Ring(polygons[0][0])
  }

  /** A Polygon-shaped value wrapped as the single polygon of a
      MultiPolygon-shaped one has the same outer ring. */
  lemma OuterRingWrapped(rings: seq<seq<Point>>)
    requires |rings| > 0 && |rings[0]| > 0
    ensures OuterRing(RingLists([rings])) == OuterRing(Rings(rings)) == Ring(rings[0])
  {
  }

  /** `f"{long_name}_{ii}"`: after `long_name` and an underscore come the
      decimal digits of `ii`, with no leading zero. */
  function RecordName(longName: string, ii: nat): (name: string)
    ensures |name| > |longName| + 1
    ensures name[..|longName| + 1] == longName + "_"
    ensures var d := name[|longName| + 1..];
      && AllDigits(d) && (|d| == 1 || d[0] != '0')
      && ParseInt(d) == Some(ii)
  {
    var s := NatToString(ii);
    var name := longName + "_" + s;
    assert name[|longName| + 1..] == s;
    assert ZeroPad(s, 0) == s;
    PaddedRoundTrip(ii, 0);
    name
  }

  /** Within one file, record names are distinct exactly when the feature
      positions are. */
  lemma RecordNameInjective(longName: string, i: nat, j: nat)
    ensures RecordName(longName, i) == RecordName(longName, j) <==> i == j
  {
    var prefix := longName + "_";
    if RecordName(longName, i) == RecordName(longName, j) {
      var a, b := prefix + NatToString(i), prefix + NatToString(j);
      assert a[|prefix|..] == NatToString(i);
      assert b[|prefix|..] == NatToString(j);
      NatToStringInjective(i, j);
    }
  }

  /** The feature produces a record. */
  predicate Yields(feature: Feature) {
    IsPolygonKind(feature.kind) && OuterRing(feature.coordinates).Ring?
  }

  /** The feature makes the loader raise. */
  predicate Breaks(feature: Feature) {
    IsPolygonKind(feature.kind) && OuterRing(feature.coordinates).Malformed?
  }

  /** The record a yielding feature at position `ii` produces. */
  function RecordOf(longName: string, ii: nat, feature: Feature): (p: Polygon)
    requires Yields(feature)
    ensures p.name == RecordName(longName, ii)
  {
    Polygon(RecordName(longName, ii), OuterRing(feature.coordinates).points)
  }

  /** One iteration of the feature loop: `None` for a skipped feature. */
  function FeatureRecord(longName: string, ii: nat, feature: Feature): (r: Result<Option<Polygon>, LoadError>)
    ensures r.Failure? <==> Breaks(feature)
    ensures r.Success? && r.value.Some? <==> Yields(feature)
    ensures Yields(feature) ==> r == Success(Some(RecordOf(longName, ii, feature)))
  {
    if !IsPolygonKind(feature.kind) then Success(None)
    else
      match OuterRing(feature.coordinates)
      case Ring(points) => Success(Some(Polygon(RecordName(longName, ii), points)))
      case Missing => Success(None)
      case Malformed => Failure(MalformedCoordinates(longName, ii))
  }

  /** The feature loop of `read_coastal_polygons_from_geojson` over one
      file, from position `from` on. */
  function ReadFeatures(longName: string, features: seq<Feature>, from: nat): (r: Result<seq<Polygon>, LoadError>)
    requires from <= |features|
    ensures r.Success? ==> |r.value| <= |features| - from
    decreases |features| - from
  {
    if from == |features| then Success([])
    else
      match FeatureRecord(longName, from, features[from])
      case Failure(e) => Failure(e)
      case Success(record) =>
        match ReadFeatures(longName, features, from + 1)
        case Failure(e) => Failure(e)
        case Success(rest) => Success((if record.Some? then [record.value] else []) + rest)
  }

  /** Reading a file raises exactly when one of its Polygon or MultiPolygon
      features has coordinates the ring lookup cannot index. */
  lemma {:induction false} ReadFeaturesFails(longName: string, features: seq<Feature>, from: nat)
    requires from <= |features|
    ensures ReadFeatures(longName, features, from).Failure?
        <==> exists i :: from <= i < |features| && Breaks(features[i])
    decreases |features| - from
  {
    if from < |features| {
      ReadFeaturesFails(longName, features, from + 1);
    }
  }

  /** A successful read of a file holds, in feature order, exactly one
      record per feature that yields one, named after its position. */
  lemma {:induction false} ReadFeaturesRecords(longName: string, features: seq<Feature>, from: nat)
    requires from <= |features|
    requires ReadFeatures(longName, features, from).Success?
    ensures var rs, ks := ReadFeatures(longName, features, from).value, Positions(features, Yields, from);
      && |rs| == |ks|
      && forall k :: 0 <= k < |rs| ==> rs[k] == RecordOf(longName, ks[k], features[ks[k]])
    decreases |features| - from
  {
    if from < |features| {
      ReadFeaturesRecords(longName, features, from + 1);
      var rest := ReadFeatures(longName, features, from + 1).value;
      var ks := Positions(features, Yields, from + 1);
      var rs := ReadFeatures(longName, features, from).value;
      var record := FeatureRecord(longName, from, features[from]);
      assert record.Success?;
      if Yields(features[from]) {
        assert record == Success(Some(RecordOf(longName, from, features[from])));
        assert rs == [RecordOf(longName, from, features[from])] + rest;
        assert Positions(features, Yields, from) == [from] + ks;
      } else {
        assert record == Success(None);
        assert rs == rest;
      }
    }
  }

  /** Records of one file carry distinct names. */
  lemma FileNamesDistinct(file: GeoJsonFile)
    requires ReadFeatures(file.longName, file.features, 0).Success?
    ensures var rs := ReadFeatures(file.longName, file.features, 0).value;
      forall a, b :: 0 <= a < b < |rs| ==> rs[a].name != rs[b].name
  {
    var rs := ReadFeatures(file.longName, file.features, 0).value;
    var ks := Positions(file.features, Yields, 0);
    ReadFeaturesRecords(file.longName, file.features, 0);
    forall a, b | 0 <= a < b < |rs| ensures rs[a].name != rs[b].name {
      IncreasingBetween(ks, a, b);
      RecordNameInjective(file.longName, ks[a], ks[b]);
    }
  }

  /** `read_coastal_polygons_from_geojson(list_of_geojsons)`: the records of
      every file, in file order and within a file in feature order. */
  function ReadCoastalPolygons(files: seq<GeoJsonFile>): (r: Result<seq<Polygon>, LoadError>)
    ensures r.Failure? <==> exists j :: 0 <= j < |files| && ReadFeatures(files[j].longName, files[j].features, 0).Failure?
    ensures r.Failure? ==> exists j :: 0 <= j < |files| && r == ReadFeatures(files[j].longName, files[j].features, 0)
    decreases |files|
  {
    if |files| == 0 then Success([])
    else
      match ReadFeatures(files[0].longName, files[0].features, 0)
      case Failure(e) => Failure(e)
      case Success(first) =>
        match ReadCoastalPolygons(files[1..])
        case Failure(e) => Failure(e)
        case Success(rest) => Success(first + rest)
  }

  /** Reading a list of files is reading its parts one after the other. */
  lemma {:induction false} ReadCoastalPolygonsAppend(a: seq<GeoJsonFile>, b: seq<GeoJsonFile>)
    ensures var ra, rb := ReadCoastalPolygons(a), ReadCoastalPolygons(b);
      ReadCoastalPolygons(a + b)
        == if ra.Failure? then ra else if rb.Failure? then rb else Success(ra.value + rb.value)
    decreases |a|
  {
    if |a| == 0 {
      assert a + b == b;
      var rb := ReadCoastalPolygons(b);
      if rb.Success? {
        assert [] + rb.value == rb.value;
      }
    } else {
      assert (a + b)[1..] == a[1..] + b;
      ReadCoastalPolygonsAppend(a[1..], b);
      var r1 := ReadCoastalPolygons(a[1..]);
      var rb := ReadCoastalPolygons(b);
      if r1.Success? && rb.Success? {
        var first := ReadFeatures(a[0].longName, a[0].features, 0);
        if first.Success? {
          assert first.value + (r1.value + rb.value) == (first.value + r1.value) + rb.value;
        }
      }
    }
  }

  /** The records of a single file. */
  lemma ReadSingleFile(file: GeoJsonFile)
    ensures ReadCoastalPolygons([file]) == ReadFeatures(file.longName, file.features, 0)
  {
    assert [file][1..] == [];
    var r := ReadFeatures(file.longName, file.features, 0);
    if r.Success? {
      assert r.value + [] == r.value;
    }
  }

  // ---------------------------------------------------------------------
  // Projection dispatch

  /** A coordinate transformation, applied point by point. */
  type Transform = Point -> Point

  /** The polygons with every point transformed and names kept. */
  function MapPoints(polygons: seq<Polygon>, t: Transform): (r: seq<Polygon>)
    ensures |r| == |polygons|
    ensures forall i :: 0 <= i < |r| ==> r[i].name == polygons[i].name
    ensures forall i :: 0 <= i < |r| ==> |r[i].points| == |polygons[i].points|
    ensures forall i, j :: 0 <= i < |r| && 0 <= j < |r[i].points| ==> r[i].points[j] == t(polygons[i].points[j])
  {
    seq(|polygons|, i requires 0 <= i < |polygons| =>
      Polygon(polygons[i].name, seq(|polygons[i].points|, j requires 0 <= j < |polygons[i].points| => t(polygons[i].points[j]))))
  }

  predicate SupportedPair(source: string, target: string) {
    || source == target
    || (source == "WGS84" && target == "NZTM")
    || (source == "NZTM" && target == "WGS84")
  }

  /** The projection step of `load_polygons`: equal projections leave the
      records as they are, WGS84 to NZTM and NZTM to WGS84 transform every
      point, and any other pair raises `ValueError`. */
  function Reproject(polygons: seq<Polygon>, source: string, target: string,
                     toNztm: Transform, toWgs84: Transform): (r: Result<seq<Polygon>, LoadError>)
    ensures r.Failure? <==> !SupportedPair(source, target)
    ensures r.Failure? ==> r.error == UnsupportedProjection(source, target)
    ensures source == target ==> r == Success(polygons)
    ensures source == "WGS84" && target == "NZTM" ==> r == Success(MapPoints(polygons, toNztm))
    ensures source == "NZTM" && target == "WGS84" ==> r == Success(MapPoints(polygons, toWgs84))
    ensures r.Success? ==> |r.value| == |polygons|
    ensures r.Success? ==> forall i :: 0 <= i < |r.value| ==>
      r.value[i].name == polygons[i].name && |r.value[i].points| == |polygons[i].points|
  {
    if source == target then Success(polygons)
    else if source == "WGS84" && target == "NZTM" then Success(MapPoints(polygons, toNztm))
    else if source == "NZTM" && target == "WGS84" then Success(MapPoints(polygons, toWgs84))
    else Failure(UnsupportedProjection(source, target))
  }

  /** With mutually inverse transformations, projecting to NZTM and back
      returns the records unchanged. */
  lemma ReprojectRoundTrip(polygons: seq<Polygon>, toNztm: Transform, toWgs84: Transform)
    requires forall p :: toWgs84(toNztm(p)) == p
    ensures var there := Reproject(polygons, "WGS84", "NZTM", toNztm, toWgs84);
      there.Success? && Reproject(there.value, "NZTM", "WGS84", toNztm, toWgs84) == Success(polygons)
  {
    var there := MapPoints(polygons, toNztm);
    var back := MapPoints(there, toWgs84);
    forall i | 0 <= i < |polygons| ensures back[i] == polygons[i] {
      forall j | 0 <= j < |polygons[i].points| ensures back[i].points[j] == polygons[i].points[j] {
        assert back[i].points[j] == toWgs84(there[i].points[j]);
      }
    }
    assert back == polygons;
  }

  /** `load_polygons(list_of_geojsons, source_projection, target_projection,
      simplify_tolerance)`: read, re-project, then simplify when a tolerance
      is given. */
  method LoadPolygons(files: seq<GeoJsonFile>, source: string, target: string, tolerance: Option<real>,
                      dist: Simplify.DistanceFn, toNztm: Transform, toWgs84: Transform)
    returns (r: Result<seq<Polygon>, LoadError>)
    requires tolerance.Some? ==> tolerance.value >= 0.0
    ensures ReadCoastalPolygons(files).Failure? ==> r == ReadCoastalPolygons(files)
    ensures ReadCoastalPolygons(files).Success? ==>
      var projected := Reproject(ReadCoastalPolygons(files).value, source, target, toNztm, toWgs84);
      && (r.Failure? <==> projected.Failure?)
      && (projected.Failure? ==> r == projected)
      && (tolerance.None? ==> r == projected)
      && (tolerance.Some? && r.Success? ==>
            && |r.value| == |projected.value|
            && forall i :: 0 <= i < |r.value| ==>
                 r.value[i] == Polygon(projected.value[i].name,
                                       Simplify.SimplifyRing(projected.value[i].points, tolerance.value, dist)))
  {
    var read := ReadCoastalPolygons(files);
    if read.Failure? {
      return read;
    }
    var projected := Reproject(read.value, source, target, toNztm, toWgs84);
    if projected.Failure? || tolerance.None? {
      return projected;
    }
    var simplified := Simplify.SimplifyPolygons(projected.value, tolerance.value, dist);
    r := Success(simplified);
  }

  // ---------------------------------------------------------------------
  // Dataframe rows

  /** A dataframe row: its `Name` and its `NZTM_Coordinates`. */
  datatype Row = Row(name: string, coordinates: seq<Point>)

  /** The row name `create_catch_polys_from_df` drops. */
  const SkippedRowName: string := "SI_10"

  /** `s.replace(' ', '_')`. */
  function ReplaceSpaces(s: string): (r: string)
    ensures |r| == |s|
    ensures forall i :: 0 <= i < |s| ==> r[i] == (if s[i] == ' ' then '_' else s[i])
  {
    if |s| == 0 then []
    else [if s[0] == ' ' then '_' else s[0]] + ReplaceSpaces(s[1..])
  }

  /** `create_catch_polys_from_df(df)` over the rows in order. */
  function CatchPolysFromRows(rows: seq<Row>): (r: seq<Polygon>)
    ensures |r| <= |rows|
    ensures forall k :: 0 <= k < |r| ==> ' ' !in r[k].name
    ensures (forall i :: 0 <= i < |rows| ==> rows[i].name != SkippedRowName) ==> |r| == |rows|
  {
    if |rows| == 0 then []
    else
      var rest := CatchPolysFromRows(rows[1..]);
      if rows[0].name == SkippedRowName then rest
      else
        [Polygon(ReplaceSpaces(rows[0].name), rows[0].coordinates)] + rest
  }

  /** Converting a frame is converting its parts one after the other. */
  lemma {:induction false} CatchPolysAppend(a: seq<Row>, b: seq<Row>)
    ensures CatchPolysFromRows(a + b) == CatchPolysFromRows(a) + CatchPolysFromRows(b)
    decreases |a|
  {
    if |a| == 0 {
      assert a + b == b;
    } else {
      assert (a + b)[1..] == a[1..] + b;
      CatchPolysAppend(a[1..], b);
    }
  }

  /** A single row: dropped when named `SI_10`, otherwise kept with its
      coordinates and its spaces replaced. The name is compared before the
      replacement, so a row named `SI 10` is kept, as `SI_10`. */
  lemma CatchPolysSingleRow(row: Row)
    ensures row.name == SkippedRowName ==> CatchPolysFromRows([row]) == []
    ensures row.name != SkippedRowName ==>
      CatchPolysFromRows([row]) == [Polygon(ReplaceSpaces(row.name), row.coordinates)]
    ensures row.name == "SI 10" ==> CatchPolysFromRows([row]) == [Polygon(SkippedRowName, row.coordinates)]
  {
    assert [row][1..] == [];
    if row.name == "SI 10" {
      assert ReplaceSpaces(row.name) == SkippedRowName;
    }
  }

  // ---------------------------------------------------------------------
  // Sampling locations

  /** A feature's `properties.code` and `properties.sample`, when present. */
  datatype LocationProperties = LocationProperties(code: Option<string>, sample: Option<string>)

  /** A sampling-site feature: its point geometry (`None` for a null
      geometry) and its properties. */
  datatype SiteFeature = SiteFeature(geometry: Option<Point>, properties: LocationProperties)

  predicate Located(feature: SiteFeature) {
    feature.geometry.Some?
  }

  /** Python truthiness of an optional string: present and non-empty. */
  predicate Truthy(s: Option<string>) {
    s.Some? && |s.value| > 0
  }

  /** `code or sample or f"Point_{position}"`. */
  function LocationName(properties: LocationProperties, position: nat): (name: string)
    ensures Truthy(properties.code) ==> name == properties.code.value
    ensures !Truthy(properties.code) && Truthy(properties.sample) ==> name == properties.sample.value
    ensures !Truthy(properties.code) && !Truthy(properties.sample) ==> name == "Point_" + NatToString(position)
  {
    if Truthy(properties.code) then properties.code.value
    else if Truthy(properties.sample) then properties.sample.value
    else "Point_" + NatToString(position)
  }

  /** The feature loop of `load_sampling_locations` from position `from`
      on, with `count` locations already collected. */
  function LocationsFrom(features: seq<SiteFeature>, from: nat, count: nat): (r: seq<SamplingLocation>)
    requires from <= |features|
    ensures |r| <= |features| - from
    decreases |features| - from
  {
    if from == |features| then []
    else if features[from].geometry.None? then LocationsFrom(features, from + 1, count)
    else
      var here := SamplingLocation(LocationName(features[from].properties, count), features[from].geometry.value);
      [here] + LocationsFrom(features, from + 1, count + 1)
  }

  /** The location of `feature` when it is the `k`-th one placed. */
  function SiteOf(feature: SiteFeature, k: nat): (location: SamplingLocation)
    requires feature.geometry.Some?
  {
    SamplingLocation(LocationName(feature.properties, k), feature.geometry.value)
  }

  /** One location per feature with a geometry, in feature order, its
      fallback name built from its own position in the result. */
  lemma {:induction false} LocationsFromSites(features: seq<SiteFeature>, from: nat, count: nat)
    requires from <= |features|
    ensures var r, ks := LocationsFrom(features, from, count), Positions(features, Located, from);
      && |r| == |ks|
      && forall k :: 0 <= k < |r| ==> r[k] == SiteOf(features[ks[k]], count + k)
    decreases |features| - from
  {
    if from < |features| {
      var r := LocationsFrom(features, from, count);
      if features[from].geometry.None? {
        LocationsFromSites(features, from + 1, count);
      } else {
        LocationsFromSites(features, from + 1, count + 1);
        var rest := LocationsFrom(features, from + 1, count + 1);
        var ks := Positions(features, Located, from + 1);
        var all := Positions(features, Located, from);
        assert r[0] == SiteOf(features[from], count);
        forall k | 1 <= k < |r| ensures r[k] == SiteOf(features[all[k]], count + k) {
          assert r[k] == rest[k - 1];
          assert all[k] == ks[k - 1];
        }
      }
    }
  }

  /** `load_sampling_locations(list_of_geojsons)`: one location per feature
      with a geometry, across all files. */
  function LoadSamplingLocations(files: seq<seq<SiteFeature>>): (r: seq<SamplingLocation>)
    ensures |r| <= |Concat(files)|
  {
    LocationsFrom(Concat(files), 0, 0)
  }

  /** A location without a usable `code` or `sample` is named `Point_<k>`,
      `k` being its own position in the result, not its feature's. */
  lemma LoadSamplingLocationsNames(files: seq<seq<SiteFeature>>)
    ensures var all, r := Concat(files), LoadSamplingLocations(files);
      var ks := Positions(all, Located, 0);
      && |r| == |ks|
      && forall k :: 0 <= k < |r| ==>
           && Some(r[k].coordinates) == all[ks[k]].geometry
           && r[k].name == LocationName(all[ks[k]].properties, k)
  {
    LocationsFromSites(Concat(files), 0, 0);
  }

  /** Two locations that both fell back to the position name have distinct
      names. */
  lemma FallbackNamesDistinct(a: nat, b: nat)
    requires a != b
    ensures LocationName(LocationProperties(None, None), a) != LocationName(LocationProperties(None, None), b)
  {
    var p := "Point_";
    var sa, sb := p + NatToString(a), p + NatToString(b);
    if sa == sb {
      assert sa[|p|..] == NatToString(a);
      assert sb[|p|..] == NatToString(b);
      NatToStringInjective(a, b);
    }
  }
}

=== FILE: selection.dfy ===
/** Choosing the release polygons (load_polygons.py): the polygons that
    contain a sampling location, the removal of ill-defined polygons, and
    `prepare_polygons`, which chains loading, selection and removal. */
module Selection {
  import opened Wrappers
  import opened Geometry
  import opened Indices
  import Simplify
  import Loader

  /** `Polygon(points).contains(Point(lon, lat))`: shapely's point-in-polygon
      test, left abstract. */
  type Containment = (seq<Point>, Point) -> bool

  /** Some location of `locations` lies inside the ring `points`. */
  predicate ContainsSome(points: seq<Point>, locations: seq<SamplingLocation>, contains: Containment) {
    exists j :: 0 <= j < |locations| && contains(points, locations[j].coordinates)
  }

  /** `sorted(list(indices))` for a set of indices below `n`. */
  function SortedBelow(indices: set<nat>, n: nat): (r: seq<nat>)
    ensures forall k :: 0 <= k < |r| ==> r[k] < n && r[k] in indices
    ensures Increasing(r)
    decreases n
  {
    if n == 0 then []
    else
      var low := SortedBelow(indices, n - 1);
      if n - 1 in indices then
        assert Increasing(low + [n - 1]) by {
          var all := low + [n - 1];
          forall t | 0 <= t < |all| - 1 ensures Ascends(all, t) {
            if t < |low| - 1 {
              assert Ascends(low, t);
            }
          }
        }
        low + [n - 1]
      else low
  }

  /** Every index below `n` in the set is listed. */
  lemma {:induction false} SortedBelowComplete(indices: set<nat>, n: nat, i: nat)
    requires i < n && i in indices
    ensures i in SortedBelow(indices, n)
    decreases n
  {
    if i < n - 1 {
      SortedBelowComplete(indices, n - 1, i);
    }
  }

  /** `find_containing_polygons(sampling_locations, coastal_polygons)`:
      the strictly ascending indices of the polygons that contain at least
      one location. */
  method FindContainingPolygons(locations: seq<SamplingLocation>, polygons: seq<Polygon>, contains: Containment)
    returns (r: seq<nat>)
    ensures Increasing(r)
    ensures forall k :: 0 <= k < |r| ==> r[k] < |polygons|
    ensures forall i :: 0 <= i < |polygons| ==> (i in r <==> ContainsSome(polygons[i].points, locations, contains))
  {
    var found: set<nat> := {};
    for l := 0 to |locations|
      invariant forall i :: i in found ==> i < |polygons|
      invariant forall i :: 0 <= i < |polygons| ==>
        (i in found <==> ContainsSome(polygons[i].points, locations[..l], contains))
    {
      for idx := 0 to |polygons|
        invariant forall i :: i in found ==> i < |polygons|
        invariant forall i :: 0 <= i < |polygons| ==>
          (i in found <==> ContainsSome(polygons[i].points, locations[..l], contains)
                           || (i < idx && contains(polygons[i].points, locations[l].coordinates)))
      {
        if contains(polygons[idx].points, locations[l].coordinates) {
          found := found + {idx};
        }
      }
      forall i | 0 <= i < |polygons|
        ensures ContainsSome(polygons[i].points, locations[..l + 1], contains)
            <==> ContainsSome(polygons[i].points, locations[..l], contains)
                 || contains(polygons[i].points, locations[l].coordinates)
      {
        ContainsSomeStep(polygons[i].points, locations, l, contains);
      }
    }
    assert locations[..|locations|] == locations;
    r := SortedBelow(found, |polygons|);
    forall i | 0 <= i < |polygons| && i in found ensures i in r {
      SortedBelowComplete(found, |polygons|, i);
    }
  }

  /** `[polygons[i] for i in ks]`. */
  function Pick(polygons: seq<Polygon>, ks: seq<nat>): (picked: seq<Polygon>)
    requires forall k :: 0 <= k < |ks| ==> ks[k] < |polygons|
  {
    seq(|ks|, k requires 0 <= k < |ks| => polygons[ks[k]])
  }

  /** The polygons that contain some location, in their original order: the
      reference for slicing by the indices `find_containing_polygons`
      returns. */
  function Containing(polygons: seq<Polygon>, locations: seq<SamplingLocation>, contains: Containment): (r: seq<Polygon>)
    ensures |r| <= |polygons|
    ensures forall k :: 0 <= k < |r| ==> ContainsSome(r[k].points, locations, contains)
    decreases |polygons|
  {
    if |polygons| == 0 then []
    else
      (if ContainsSome(polygons[0].points, locations, contains) then [polygons[0]] else [])
      + Containing(polygons[1..], locations, contains)
  }

  /** Slicing by an ascending index list that holds exactly the positions of
      the containing polygons (from `from` on) gives the containing polygons,
      in order. */
  lemma {:induction false} PickContaining(polygons: seq<Polygon>, locations: seq<SamplingLocation>, contains: Containment,
                                          ks: seq<nat>, from: nat)
    requires from <= |polygons| && Increasing(ks)
    requires forall k :: 0 <= k < |ks| ==> from <= ks[k] < |polygons|
    requires forall i :: from <= i < |polygons| ==> (i in ks <==> ContainsSome(polygons[i].points, locations, contains))
    ensures Pick(polygons, ks) == Containing(polygons[from..], locations, contains)
    decreases |polygons| - from
  {
    var rest := polygons[from..];
    if from == |polygons| {
      WithinRange(ks, from, |polygons|);
      assert rest == [];
    } else {
      assert rest[0] == polygons[from] && rest[1..] == polygons[from + 1..];
      if ContainsSome(polygons[from].points, locations, contains) {
        var t :| 0 <= t < |ks| && ks[t] == from;
        if t > 0 {
          IncreasingBetween(ks, 0, t);
        }
        var tail := ks[1..];
        IncreasingTail(ks);
        forall k | 0 <= k < |tail| ensures from + 1 <= tail[k] < |polygons| {
          IncreasingBetween(ks, 0, k + 1);
        }
        forall i | from + 1 <= i < |polygons|
          ensures i in tail <==> ContainsSome(polygons[i].points, locations, contains)
        {
          assert i in ks <==> i in tail by {
            if i in ks {
              var u :| 0 <= u < |ks| && ks[u] == i;
              assert u > 0 && tail[u - 1] == i;
            }
          }
        }
        PickContaining(polygons, locations, contains, tail, from + 1);
        assert Pick(polygons, ks) == [polygons[from]] + Pick(polygons, tail);
      } else {
        forall k | 0 <= k < |ks| ensures from + 1 <= ks[k] {
          assert ks[k] in ks;
        }
        PickContaining(polygons, locations, contains, ks, from + 1);
      }
    }
  }

  /** Extending the locations seen by one more. */
  lemma {:induction false} ContainsSomeStep(points: seq<Point>, locations: seq<SamplingLocation>, l: nat, contains: Containment)
    requires l < |locations|
    ensures ContainsSome(points, locations[..l + 1], contains)
        <==> ContainsSome(points, locations[..l], contains) || contains(points, locations[l].coordinates)
  {
    var before, after := locations[..l], locations[..l + 1];
    if ContainsSome(points, after, contains) && !contains(points, locations[l].coordinates) {
      var j :| 0 <= j < |after| && contains(points, after[j].coordinates);
      assert before[j] == after[j];
    }
    if ContainsSome(points, before, contains) {
      var j :| 0 <= j < |before| && contains(points, before[j].coordinates);
      assert after[j] == before[j];
    }
    if contains(points, locations[l].coordinates) {
      assert after[l] == locations[l];
    }
  }

  // ---------------------------------------------------------------------
  // Removal of ill-defined polygons

  /** Polygons with fewer points are dropped after simplification. */
  const MinimumPoints: nat := 4

  predicate IllDefined(polygon: Polygon) {
    |polygon.points| < MinimumPoints
  }

  /** The polygons with at least `MinimumPoints` points, in order: the
      reference for the removal loop. */
  function WellDefined(polygons: seq<Polygon>): (r: seq<Polygon>)
    ensures |r| <= |polygons|
    ensures forall k :: 0 <= k < |r| ==> |r[k].points| >= MinimumPoints
  {
    if |polygons| == 0 then []
    else (if IllDefined(polygons[0]) then [] else [polygons[0]]) + WellDefined(polygons[1..])
  }

  /** A polygon survives exactly when it is one of the input polygons and has
      enough points. */
  lemma {:induction false} WellDefinedMembers(polygons: seq<Polygon>, p: Polygon)
    ensures p in WellDefined(polygons) <==> p in polygons && !IllDefined(p)
    decreases |polygons|
  {
    if |polygons| > 0 {
      WellDefinedMembers(polygons[1..], p);
      assert polygons == [polygons[0]] + polygons[1..];
    }
  }

  /** Filtering a concatenation filters each part. */
  lemma {:induction false} WellDefinedAppend(a: seq<Polygon>, b: seq<Polygon>)
    ensures WellDefined(a + b) == WellDefined(a) + WellDefined(b)
    decreases |a|
  {
    if |a| == 0 {
      assert a + b == b;
    } else {
      assert (a + b)[1..] == a[1..] + b;
      WellDefinedAppend(a[1..], b);
    }
  }

  /** Filtering keeps a run of well-defined polygons whole. */
  lemma {:induction false} WellDefinedKeepsGood(polygons: seq<Polygon>)
    requires forall i :: 0 <= i < |polygons| ==> !IllDefined(polygons[i])
    ensures WellDefined(polygons) == polygons
    decreases |polygons|
  {
    if |polygons| > 0 {
      WellDefinedKeepsGood(polygons[1..]);
    }
  }

  /** A polygon at a position the listing skips is well-defined: the
      listing is complete. */
  lemma {:induction false} NoIllDefinedBetween(polygons: seq<Polygon>, lo: int, hi: nat, x: nat)
    requires var buggy := Positions(polygons, IllDefined, 0);
      && -1 <= lo < hi <= |polygons|
      && (forall t :: 0 <= t < |buggy| ==> buggy[t] <= lo || hi <= buggy[t])
    requires lo < x < hi
    ensures !IllDefined(polygons[x])
  {
    if IllDefined(polygons[x]) {
      PositionsComplete(polygons, IllDefined, 0, x);
    }
  }

  /** The removal loop of `prepare_polygons`: list the ill-defined
      positions, then pop them from the highest down. */
  method RemoveIllDefined(polygons: seq<Polygon>) returns (r: seq<Polygon>)
    ensures r == WellDefined(polygons)
  {
    var buggy := Positions(polygons, IllDefined, 0);
    r := polygons;
    var j := |buggy|;
    var lo := |polygons|;
    assert polygons[lo..] == [];
    while j > 0
      invariant 0 <= j <= |buggy|
      invariant lo == if j == |buggy| then |polygons| else buggy[j]
      invariant lo <= |polygons|
      invariant r == polygons[..lo] + WellDefined(polygons[lo..])
      decreases j
    {
      j := j - 1;
      var b := buggy[j];
      PopKeepsInvariant(polygons, buggy, j, lo, r);
      r := r[..b] + r[b + 1..];
      lo := b;
    }
    FirstRunKept(polygons, buggy, lo, r);
  }

  /** One iteration of the removal loop keeps its invariant. */
  lemma {:induction false} PopKeepsInvariant(polygons: seq<Polygon>, buggy: seq<nat>, j: nat, lo: nat, r: seq<Polygon>)
    requires buggy == Positions(polygons, IllDefined, 0)
    requires j < |buggy| && lo == (if j + 1 == |buggy| then |polygons| else buggy[j + 1])
    requires r == polygons[..lo] + WellDefined(polygons[lo..])
    ensures buggy[j] < lo <= |polygons|
    ensures r[..buggy[j]] + r[buggy[j] + 1..] == polygons[..buggy[j]] + WellDefined(polygons[buggy[j]..])
  {
    var b := buggy[j];
    if j + 1 < |buggy| {
      IncreasingBetween(buggy, j, j + 1);
    }
    GapGood(polygons, buggy, j, b, lo);
    PopStep(polygons, b, lo);
  }

  /** Once the loop has popped every listed position, what is left is the
      filtered list. */
  lemma {:induction false} FirstRunKept(polygons: seq<Polygon>, buggy: seq<nat>, lo: nat, r: seq<Polygon>)
    requires buggy == Positions(polygons, IllDefined, 0)
    requires lo == (if |buggy| == 0 then |polygons| else buggy[0])
    requires r == polygons[..lo] + WellDefined(polygons[lo..])
    ensures r == WellDefined(polygons)
  {
    FirstRunGood(polygons, buggy, lo);
    WellDefinedKeepsGood(polygons[..lo]);
    WellDefinedAppend(polygons[..lo], polygons[lo..]);
    assert polygons[..lo] + polygons[lo..] == polygons;
  }

  /** Popping position `b`, the next listed position below `lo`. */
  lemma {:induction false} PopStep(polygons: seq<Polygon>, b: nat, lo: nat)
    requires b < lo <= |polygons| && IllDefined(polygons[b])
    requires forall x :: b < x < lo ==> !IllDefined(polygons[x])
    ensures var r := polygons[..lo] + WellDefined(polygons[lo..]);
      r[..b] + r[b + 1..] == polygons[..b] + WellDefined(polygons[b..])
  {
    FilterFromIllDefined(polygons, b, lo);
    var head := polygons[..lo];
    RemoveAt(head, WellDefined(polygons[lo..]), b);
    assert head[..b] == polygons[..b];
    assert head[b + 1..] == polygons[b + 1..lo];
  }

  /** From an ill-defined polygon up to `lo` only that polygon is dropped. */
  lemma {:induction false} FilterFromIllDefined(polygons: seq<Polygon>, b: nat, lo: nat)
    requires b < lo <= |polygons| && IllDefined(polygons[b])
    requires forall x :: b < x < lo ==> !IllDefined(polygons[x])
    ensures WellDefined(polygons[b..]) == polygons[b + 1..lo] + WellDefined(polygons[lo..])
  {
    var mid, tail := polygons[b + 1..lo], polygons[lo..];
    GoodSlice(polygons, b + 1, lo);
    WellDefinedKeepsGood(mid);
    WellDefinedAppend(mid, tail);
    assert polygons[b..][1..] == mid + tail;
    assert polygons[b..][0] == polygons[b];
  }

  /** A slice of well-defined polygons holds only well-defined polygons. */
  lemma {:induction false} GoodSlice(polygons: seq<Polygon>, lo: nat, hi: nat)
    requires lo <= hi <= |polygons|
    requires forall x :: lo <= x < hi ==> !IllDefined(polygons[x])
    ensures forall x :: 0 <= x < |polygons[lo..hi]| ==> !IllDefined(polygons[lo..hi][x])
  {
    forall x | 0 <= x < hi - lo ensures !IllDefined(polygons[lo..hi][x]) {
      assert polygons[lo..hi][x] == polygons[lo + x];
    }
  }

  /** Removing position `b` of a concatenation, `b` within its first part. */
  lemma {:induction false} RemoveAt<T>(a: seq<T>, c: seq<T>, b: nat)
    requires b < |a|
    ensures (a + c)[..b] + (a + c)[b + 1..] == a[..b] + (a[b + 1..] + c)
  {
    var l, r := (a + c)[..b] + (a + c)[b + 1..], a[..b] + (a[b + 1..] + c);
    assert |l| == |r|;
    forall k | 0 <= k < |l| ensures l[k] == r[k] {
      if k < b {
        assert l[k] == a[k];
      } else if k < |a| - 1 {
        assert l[k] == a[k + 1];
      } else {
        assert l[k] == c[k - (|a| - 1)];
      }
    }
  }

  /** Between two neighbouring listed positions every polygon is
      well-defined. */
  lemma {:induction false} GapGood(polygons: seq<Polygon>, buggy: seq<nat>, j: nat, b: nat, lo: nat)
    requires buggy == Positions(polygons, IllDefined, 0)
    requires j < |buggy| && b == buggy[j]
    requires lo == (if j + 1 == |buggy| then |polygons| else buggy[j + 1])
    requires b < lo <= |polygons|
    ensures forall x :: b < x < lo ==> !IllDefined(polygons[x])
  {
    forall t | 0 <= t < |buggy| ensures buggy[t] <= b || lo <= buggy[t] {
      if t < j {
        IncreasingBetween(buggy, t, j);
      } else if t > j + 1 {
        IncreasingBetween(buggy, j + 1, t);
      }
    }
    forall x | b < x < lo ensures !IllDefined(polygons[x]) {
      NoIllDefinedBetween(polygons, b, lo, x);
    }
  }

  /** Below the lowest listed position every polygon is well-defined. */
  lemma {:induction false} FirstRunGood(polygons: seq<Polygon>, buggy: seq<nat>, lo: nat)
    requires buggy == Positions(polygons, IllDefined, 0)
    requires lo == (if |buggy| == 0 then |polygons| else buggy[0])
    ensures forall x :: 0 <= x < |polygons[..lo]| ==> !IllDefined(polygons[..lo][x])
  {
    forall x | 0 <= x < lo ensures !IllDefined(polygons[x]) {
      forall t | 0 <= t < |buggy| ensures buggy[t] <= -1 || lo <= buggy[t] {
        if t > 0 {
          IncreasingBetween(buggy, 0, t);
        }
      }
      NoIllDefinedBetween(polygons, -1, lo, x);
    }
  }

  // ---------------------------------------------------------------------
  // prepare_polygons

  /** `simplify_tolerance` of the New Zealand polygons: 1000 / 1e5 degrees. */
  const NzTolerance: real := 0.01

  /** `simplify_tolerance` of the Australian polygons: 5000 / 1e5 degrees. */
  const AuTolerance: real := 0.05

  /** `prepare_polygons()`: the simplified New Zealand polygons, and the
      simplified Australian polygons that contain a sampling location and
      have at least four points, both in WGS84. */
  method PreparePolygons(nzFiles: seq<Loader.GeoJsonFile>, auFiles: seq<Loader.GeoJsonFile>,
                         siteFiles: seq<seq<Loader.SiteFeature>>, dist: Simplify.DistanceFn,
                         toNztm: Loader.Transform, toWgs84: Loader.Transform, contains: Containment)
    returns (r: Result<(seq<Polygon>, seq<Polygon>), Loader.LoadError>)
    ensures r.Failure? <==> Loader.ReadCoastalPolygons(nzFiles).Failure? || Loader.ReadCoastalPolygons(auFiles).Failure?
    ensures Loader.ReadCoastalPolygons(nzFiles).Failure? ==> r == Failure(Loader.ReadCoastalPolygons(nzFiles).error)
    ensures Loader.ReadCoastalPolygons(nzFiles).Success? && Loader.ReadCoastalPolygons(auFiles).Failure? ==>
      r == Failure(Loader.ReadCoastalPolygons(auFiles).error)
    ensures r.Success? ==>
      r.value.0 == Simplify.Simplified(Loader.ReadCoastalPolygons(nzFiles).value, NzTolerance, dist)
    ensures r.Success? ==>
      r.value.1 == WellDefined(Containing(Simplify.Simplified(Loader.ReadCoastalPolygons(auFiles).value, AuTolerance, dist),
                                          Loader.LoadSamplingLocations(siteFiles), contains))
    ensures r.Success? ==> forall k :: 0 <= k < |r.value.1| ==>
      && |r.value.1[k].points| >= MinimumPoints
      && ContainsSome(r.value.1[k].points, Loader.LoadSamplingLocations(siteFiles), contains)
  {
    var nz := Loader.LoadPolygons(nzFiles, "WGS84", "WGS84", Some(NzTolerance), dist, toNztm, toWgs84);
    if nz.Failure? {
      return Failure(nz.error);
    }
    SimplifiedRead(nzFiles, nz.value, NzTolerance, dist, toNztm, toWgs84);
    var au := Loader.LoadPolygons(auFiles, "WGS84", "WGS84", Some(AuTolerance), dist, toNztm, toWgs84);
    if au.Failure? {
      return Failure(au.error);
    }
    SimplifiedRead(auFiles, au.value, AuTolerance, dist, toNztm, toWgs84);
    var sites := Loader.LoadSamplingLocations(siteFiles);
    var subset := FindContainingPolygons(sites, au.value, contains);
    var sampled := Pick(au.value, subset);
    PickContaining(au.value, sites, contains, subset, 0);
    assert au.value[0..] == au.value;
    var kept := RemoveIllDefined(sampled);
    forall k | 0 <= k < |kept| ensures ContainsSome(kept[k].points, sites, contains) {
      WellDefinedMembers(sampled, kept[k]);
    }
    r := Success((nz.value, kept));
  }

  /** What `load_polygons` returns for WGS84 input kept in WGS84 with a
      tolerance: the simplified records read. */
  lemma SimplifiedRead(files: seq<Loader.GeoJsonFile>, loaded: seq<Polygon>, tolerance: real, dist: Simplify.DistanceFn,
                       toNztm: Loader.Transform, toWgs84: Loader.Transform)
    requires tolerance >= 0.0 && Loader.ReadCoastalPolygons(files).Success?
    requires |loaded| == |Loader.ReadCoastalPolygons(files).value|
    requires forall i :: 0 <= i < |loaded| ==>
      var p := Loader.ReadCoastalPolygons(files).value[i];
      loaded[i] == Polygon(p.name, Simplify.SimplifyRing(p.points, tolerance, dist))
    ensures loaded == Simplify.Simplified(Loader.ReadCoastalPolygons(files).value, tolerance, dist)
  {
  }
}

=== FILE: simplify.dfy ===
/** Ramer–Douglas–Peucker simplification of polygon rings
    (simplify_polygons.py). The perpendicular point-to-line distance is
    a parameter: every fact proved here holds for any distance function. */
module Simplify {
  import opened Geometry
  import opened Indices

  /** `dist(p, a, b)`: the distance of `p` from the line through `a` and `b`. */
  type DistanceFn = (Point, Point, Point) -> real

  /** The distance of `points[k]` from the chord joining the first and the
      last point of `points`. */
  function ChordDistance(points: seq<Point>, dist: DistanceFn, k: nat): (d: real)
    requires k < |points|
  {
    dist(points[k], points[0], Last(points))
  }

  /** Every interior point lies within `tolerance` of the chord. */
  predicate WithinChord(points: seq<Point>, tolerance: real, dist: DistanceFn) {
    forall k :: 0 < k < |points| - 1 ==> ChordDistance(points, dist, k) <= tolerance
  }

  /** `(max_distance, max_index)` of the search for the farthest interior point. */
  datatype Farthest = Farthest(distance: real, index: nat)

  /** The search state after visiting indices `1 .. upTo - 1` in order: both
      start at 0 and change only when a strictly greater distance is seen. */
  function ScanFarthest(points: seq<Point>, dist: DistanceFn, upTo: nat): (f: Farthest)
    requires 1 <= upTo <= |points|
    ensures f.index < upTo
    ensures f.distance >= 0.0
    ensures f.index == 0 ==> f.distance == 0.0
    ensures f.index != 0 ==> f.distance == ChordDistance(points, dist, f.index)
    decreases upTo
  {
    if upTo == 1 then Farthest(0.0, 0)
    else
      var f := ScanFarthest(points, dist, upTo - 1);
      var d := ChordDistance(points, dist, upTo - 1);
      if d > f.distance then Farthest(d, upTo - 1) else f
  }

  /** The scan finds the FIRST point at the maximal distance, or index 0 when
      no distance exceeds 0. */
  lemma {:induction false} ScanIsFirstMaximum(points: seq<Point>, dist: DistanceFn, upTo: nat)
    requires 1 <= upTo <= |points|
    ensures var f := ScanFarthest(points, dist, upTo);
      && (forall k :: 1 <= k < upTo ==> ChordDistance(points, dist, k) <= f.distance)
      && (forall k :: 1 <= k < f.index ==> ChordDistance(points, dist, k) < f.distance)
    decreases upTo
  {
    if upTo > 1 {
      ScanIsFirstMaximum(points, dist, upTo - 1);
    }
  }

  /** The scan's result is fixed by the distances alone: a positive distance
      that is maximal, and strictly greater than every earlier one, wins. */
  lemma {:induction false} ScanFindsFirstMaximum(points: seq<Point>, dist: DistanceFn, upTo: nat, j: nat)
    requires 1 <= j < upTo <= |points|
    requires ChordDistance(points, dist, j) > 0.0
    requires forall k :: 1 <= k < upTo ==> ChordDistance(points, dist, k) <= ChordDistance(points, dist, j)
    requires forall k :: 1 <= k < j ==> ChordDistance(points, dist, k) < ChordDistance(points, dist, j)
    ensures ScanFarthest(points, dist, upTo) == Farthest(ChordDistance(points, dist, j), j)
    decreases upTo
  {
    if j < upTo - 1 {
      ScanFindsFirstMaximum(points, dist, upTo - 1, j);
    } else {
      var f := ScanFarthest(points, dist, upTo - 1);
      assert f.distance < ChordDistance(points, dist, j) by {
        if f.index != 0 {
          assert ChordDistance(points, dist, f.index) < ChordDistance(points, dist, j);
        }
      }
    }
  }

  /** The scan over `points` settles on index `m` and its distance exceeds
      `tolerance`: the recursion splits at `m`. */
  predicate SplitsAt(points: seq<Point>, tolerance: real, dist: DistanceFn, m: nat) {
    && |points| >= 3
    && ScanFarthest(points, dist, |points| - 1).index == m
    && ScanFarthest(points, dist, |points| - 1).distance > tolerance
  }

  /** Two pieces that share their joint element, joined with the joint kept
      once: `left[:-1] + right`. */
  function Glue<T>(left: seq<T>, right: seq<T>): (g: seq<T>)
    requires |left| >= 1
    ensures |g| == |left| - 1 + |right|
  {
    left[..|left| - 1] + right
  }

  /** `ramer_douglas_peucker(points, tolerance)`. With a negative tolerance
      the source can recurse without end: on a range of three or more points
      whose interior distances are all at most 0, `max_index` stays 0 while
      `max_distance > tolerance` holds, and `points[0:]` is the same range
      again. */
  function RamerDouglasPeucker(points: seq<Point>, tolerance: real, dist: DistanceFn): (r: seq<Point>)
    requires tolerance >= 0.0
    ensures |points| <= 2 ==> r == points
    ensures |points| >= 2 ==> 2 <= |r| <= |points| && r[0] == points[0] && Last(r) == Last(points)
    decreases |points|, 1
  {
    if |points| <= 2 then points
    else
      var f := ScanFarthest(points, dist, |points| - 1);
      if f.distance > tolerance then RdpSplit(points, tolerance, dist, f.index)
      else [points[0], Last(points)]
  }

  /** The split step of `RamerDouglasPeucker`: both halves simplified, the
      farthest point `m` shared by them kept once. */
  function RdpSplit(points: seq<Point>, tolerance: real, dist: DistanceFn, m: nat): (r: seq<Point>)
    requires tolerance >= 0.0 && SplitsAt(points, tolerance, dist, m)
    ensures 2 <= |r| <= |points| && r[0] == points[0] && Last(r) == Last(points)
    decreases |points|, 0
  {
    var left := RamerDouglasPeucker(points[..m + 1], tolerance, dist);
    var right := RamerDouglasPeucker(points[m..], tolerance, dist);
    Glue(left, right)
  }

  /** A ring of three or more points collapses to its two end points exactly
      when every interior point lies within `tolerance` of the chord; otherwise
      at least one interior point survives. */
  lemma {:induction false} RdpCollapsesIffWithinChord(points: seq<Point>, tolerance: real, dist: DistanceFn)
    requires tolerance >= 0.0 && |points| >= 3
    ensures var r := RamerDouglasPeucker(points, tolerance, dist);
      (|r| == 2 <==> WithinChord(points, tolerance, dist))
      && (WithinChord(points, tolerance, dist) ==> r == [points[0], Last(points)])
  {
    var f := ScanFarthest(points, dist, |points| - 1);
    ScanIsFirstMaximum(points, dist, |points| - 1);
    if f.distance > tolerance {
      assert !WithinChord(points, tolerance, dist) by {
        assert ChordDistance(points, dist, f.index) > tolerance;
      }
    }
  }

  /** Index helpers: the identity selection, a shifted selection, strict order. */
  function Identity(n: nat): (ks: seq<nat>)
    ensures |ks| == n && forall t :: 0 <= t < n ==> ks[t] == t
  {
    if n == 0 then [] else Identity(n - 1) + [n - 1]
  }

  function Shift(ks: seq<nat>, m: nat): (s: seq<nat>)
    ensures |s| == |ks| && forall t {:trigger s[t]} :: 0 <= t < |ks| ==> s[t] == ks[t] + m
  {
    if |ks| == 0 then [] else Shift(ks[..|ks| - 1], m) + [Last(ks) + m]
  }

  /** Every index is below `n`. */
  predicate InRange(ks: seq<nat>, n: nat) {
    forall t :: 0 <= t < |ks| ==> ks[t] < n
  }

  /** The points at the given indices, in the given order. */
  function Select(points: seq<Point>, ks: seq<nat>): (r: seq<Point>)
    requires InRange(ks, |points|)
    ensures |r| == |ks| && forall t {:trigger r[t]} :: 0 <= t < |ks| ==> r[t] == points[ks[t]]
  {
    if |ks| == 0 then [] else Select(points, ks[..|ks| - 1]) + [points[Last(ks)]]
  }

  /** The indices kept on both sides of a split at `m`, joined at `m`. */
  function Join(left: seq<nat>, right: seq<nat>, m: nat): (ks: seq<nat>)
    requires |left| >= 1
    ensures |ks| == |left| - 1 + |right|
    ensures forall t {:trigger ks[t]} :: 0 <= t < |left| - 1 ==> ks[t] == left[t]
    ensures forall t {:trigger ks[t]} :: |left| - 1 <= t < |ks| ==> ks[t] == right[t - (|left| - 1)] + m
  {
    Glue(left, Shift(right, m))
  }

  /** The join of two index selections is strictly increasing and stays in range. */
  lemma {:induction false} JoinIncreasing(left: seq<nat>, right: seq<nat>, m: nat, n: nat)
    requires m < n
    requires |left| >= 2 && Last(left) == m && Increasing(left)
    requires |right| >= 2 && right[0] == 0 && Increasing(right)
    requires InRange(right, n - m)
    ensures var ks := Join(left, right, m);
      ks[0] == left[0] && ks[|left| - 1] == m && Last(ks) == Last(right) + m
      && Increasing(ks) && InRange(ks, n)
  {
    var ks := Join(left, right, m);
    forall t | 0 <= t < |ks| - 1
      ensures Ascends(ks, t)
    {
      if t < |left| - 2 {
        assert ks[t] == left[t] && ks[t + 1] == left[t + 1];
        assert Ascends(left, t);
      } else if t == |left| - 2 {
        assert ks[t] == left[t] && ks[t + 1] == right[0] + m;
        IncreasingBetween(left, t, |left| - 1);
      } else {
        var u := t - (|left| - 1);
        assert ks[t] == right[u] + m && ks[t + 1] == right[u + 1] + m;
        assert Ascends(right, u);
      }
    }
    forall t | 0 <= t < |ks|
      ensures ks[t] < n
    {
      if t < |left| - 1 {
        IncreasingBetween(left, t, |left| - 1);
      } else {
        assert ks[t] == right[t - (|left| - 1)] + m;
      }
    }
  }

  /** The indices of the points `RamerDouglasPeucker` keeps, computed by the
      same recursion. */
  function KeptIndices(points: seq<Point>, tolerance: real, dist: DistanceFn): (ks: seq<nat>)
    requires tolerance >= 0.0
    ensures |points| <= 2 ==> ks == Identity(|points|)
    ensures |points| >= 2 ==> |ks| >= 2 && ks[0] == 0 && Last(ks) == |points| - 1
    ensures InRange(ks, |points|)
    ensures Increasing(ks)
    decreases |points|, 1
  {
    if |points| <= 2 then Identity(|points|)
    else
      var f := ScanFarthest(points, dist, |points| - 1);
      if f.distance > tolerance then KeptSplit(points, tolerance, dist, f.index)
      else [0, |points| - 1]
  }

  /** The split step of `KeptIndices`: the kept indices of both halves, the
      right half's shifted by the split point `m`. */
  function KeptSplit(points: seq<Point>, tolerance: real, dist: DistanceFn, m: nat): (ks: seq<nat>)
    requires tolerance >= 0.0 && SplitsAt(points, tolerance, dist, m)
    ensures |ks| >= 2 && ks[0] == 0 && Last(ks) == |points| - 1
    ensures InRange(ks, |points|)
    ensures Increasing(ks)
    decreases |points|, 0
  {
    var left := KeptIndices(points[..m + 1], tolerance, dist);
    var right := KeptIndices(points[m..], tolerance, dist);
    JoinIncreasing(left, right, m, |points|);
    Join(left, right, m)
  }

  /** The simplified ring is exactly the input's points at `KeptIndices`:
      a subsequence of the input, in the input's order. */
  lemma {:induction false} RdpSelectsKeptIndices(points: seq<Point>, tolerance: real, dist: DistanceFn)
    requires tolerance >= 0.0
    ensures RamerDouglasPeucker(points, tolerance, dist)
         == Select(points, KeptIndices(points, tolerance, dist))
    decreases |points|
  {
    if |points| <= 2 {
      SelectIdentity(points);
    } else {
      var f := ScanFarthest(points, dist, |points| - 1);
      if f.distance > tolerance {
        var m := f.index;
        var lp, rp := points[..m + 1], points[m..];
        RdpSelectsKeptIndices(lp, tolerance, dist);
        RdpSelectsKeptIndices(rp, tolerance, dist);
        RdpSplitsAt(points, tolerance, dist, m);
        KeptSplitsAt(points, tolerance, dist, m);
        SelectJoin(points, m, KeptIndices(lp, tolerance, dist), KeptIndices(rp, tolerance, dist));
      }
    }
  }

  lemma {:induction false} SelectIdentity(points: seq<Point>)
    ensures InRange(Identity(|points|), |points|)
    ensures Select(points, Identity(|points|)) == points
  {
    var ks := Identity(|points|);
    assert InRange(ks, |points|);
    var r := Select(points, ks);
    assert forall t :: 0 <= t < |points| ==> r[t] == points[t];
  }

  lemma {:induction false} JoinInRange(left: seq<nat>, right: seq<nat>, m: nat, n: nat)
    requires m < n
    requires |left| >= 1 && InRange(left, m + 1)
    requires InRange(right, n - m)
    ensures InRange(Join(left, right, m), n)
  {
    var ks := Join(left, right, m);
    forall t | 0 <= t < |ks|
      ensures ks[t] < n
    {
      if t >= |left| - 1 {
        assert ks[t] == right[t - (|left| - 1)] + m;
      }
    }
  }

  /** Selecting from the two halves of a split and joining the selections at
      the shared split point selects from the whole. */
  lemma {:induction false} SelectJoin(points: seq<Point>, m: nat, left: seq<nat>, right: seq<nat>)
    requires m < |points|
    requires |left| >= 1 && InRange(left, m + 1) && Last(left) == m
    requires |right| >= 1 && InRange(right, |points| - m) && right[0] == 0
    ensures InRange(Join(left, right, m), |points|)
    ensures Glue(Select(points[..m + 1], left), Select(points[m..], right)) == Select(points, Join(left, right, m))
  {
    JoinInRange(left, right, m, |points|);
    var ks := Join(left, right, m);
    var sl, sr := Select(points[..m + 1], left), Select(points[m..], right);
    var joined := Glue(sl, sr);
    var whole := Select(points, ks);
    forall t | 0 <= t < |joined|
      ensures joined[t] == whole[t]
    {
      if t < |left| - 1 {
        assert joined[t] == sl[t] == points[..m + 1][left[t]];
      } else {
        var u := t - (|left| - 1);
        assert joined[t] == sr[u] == points[m..][right[u]];
      }
    }
  }

  /** Every point strictly between indices `i` and `j` lies within
      `tolerance` of the segment joining `points[i]` and `points[j]`. */
  ghost predicate PairWithin(points: seq<Point>, i: nat, j: nat, tolerance: real, dist: DistanceFn)
    requires i < |points| && j < |points|
  {
    forall k :: i < k < j ==> dist(points[k], points[i], points[j]) <= tolerance
  }

  /** The points dropped between the kept indices `ks[t]` and `ks[t + 1]`
      lie within `tolerance` of the segment joining those two kept points. */
  ghost predicate GapWithin(points: seq<Point>, ks: seq<nat>, t: nat, tolerance: real, dist: DistanceFn)
    requires t + 1 < |ks| && InRange(ks, |points|)
  {
    PairWithin(points, ks[t], ks[t + 1], tolerance, dist)
  }

  /** Every dropped point lies within `tolerance` of the segment joining the
      two kept points that bracket it. */
  ghost predicate WithinTolerance(points: seq<Point>, ks: seq<nat>, tolerance: real, dist: DistanceFn)
    requires InRange(ks, |points|)
  {
    forall t :: 0 <= t < |ks| - 1 ==> GapWithin(points, ks, t, tolerance, dist)
  }

  /** The tolerance bound of a pair carries over from a slice to the whole. */
  lemma {:induction false} PairWithinSlice(points: seq<Point>, lo: nat, hi: nat, i: nat, j: nat, tolerance: real, dist: DistanceFn)
    requires lo <= hi <= |points| && i < hi - lo && j < hi - lo
    requires PairWithin(points[lo..hi], i, j, tolerance, dist)
    ensures PairWithin(points, i + lo, j + lo, tolerance, dist)
  {
    var sub := points[lo..hi];
    forall k | i + lo < k < j + lo
      ensures dist(points[k], points[i + lo], points[j + lo]) <= tolerance
    {
      assert sub[k - lo] == points[k];
    }
  }

  lemma {:induction false} RdpWithinTolerance(points: seq<Point>, tolerance: real, dist: DistanceFn)
    requires tolerance >= 0.0
    ensures WithinTolerance(points, KeptIndices(points, tolerance, dist), tolerance, dist)
    decreases |points|
  {
    if |points| > 2 {
      var f := ScanFarthest(points, dist, |points| - 1);
      if f.distance > tolerance {
        var m := f.index;
        var lp, rp := points[..m + 1], points[m..];
        RdpWithinTolerance(lp, tolerance, dist);
        RdpWithinTolerance(rp, tolerance, dist);
        ToleranceJoin(points, m, KeptIndices(lp, tolerance, dist), KeptIndices(rp, tolerance, dist), tolerance, dist);
      } else {
        ScanIsFirstMaximum(points, dist, |points| - 1);
        forall k | 0 < k < |points| - 1
          ensures dist(points[k], points[0], points[|points| - 1]) <= tolerance
        {
          assert ChordDistance(points, dist, k) <= f.distance;
        }
      }
    }
  }

  /** The split step preserves the tolerance bound: the bracketing pairs of
      the joined selection are those of the two halves. */
  lemma {:induction false} ToleranceJoin(points: seq<Point>, m: nat, left: seq<nat>, right: seq<nat>,
                      tolerance: real, dist: DistanceFn)
    requires m < |points|
    requires |left| >= 2 && InRange(left, m + 1) && Last(left) == m && Increasing(left)
    requires |right| >= 2 && InRange(right, |points| - m) && right[0] == 0 && Increasing(right)
    requires WithinTolerance(points[..m + 1], left, tolerance, dist)
    requires WithinTolerance(points[m..], right, tolerance, dist)
    ensures InRange(Join(left, right, m), |points|) && Increasing(Join(left, right, m))
    ensures WithinTolerance(points, Join(left, right, m), tolerance, dist)
  {
    JoinIncreasing(left, right, m, |points|);
    var ks := Join(left, right, m);
    forall t | 0 <= t < |ks| - 1
      ensures GapWithin(points, ks, t, tolerance, dist)
    {
      if t < |left| - 1 {
        GapFromSlice(points, 0, m + 1, left, ks, t, t, tolerance, dist);
      } else {
        var u := t - (|left| - 1);
        assert GapWithin(points[m..], right, u, tolerance, dist);
        assert points[m..|points|] == points[m..];
        GapFromSlice(points, m, |points|, right, ks, t, u, tolerance, dist);
      }
    }
  }

  /** A gap of the selection `sub` of the slice `points[lo..hi]` is, shifted
      by `lo`, a gap of the selection `ks` of the whole. */
  lemma {:induction false} GapFromSlice(points: seq<Point>, lo: nat, hi: nat, sub: seq<nat>, ks: seq<nat>,
                                        t: nat, u: nat, tolerance: real, dist: DistanceFn)
    requires lo <= hi <= |points|
    requires u + 1 < |sub| && InRange(sub, hi - lo) && GapWithin(points[lo..hi], sub, u, tolerance, dist)
    requires t + 1 < |ks| && InRange(ks, |points|)
    requires ks[t] == sub[u] + lo && ks[t + 1] == sub[u + 1] + lo
    ensures GapWithin(points, ks, t, tolerance, dist)
  {
    PairWithinSlice(points, lo, hi, sub[u], sub[u + 1], tolerance, dist);
  }

  /** Re-running the scan on a selection of `points` that keeps the first
      point, the last point and the split point `m` finds `m` again. */
  lemma {:induction false} ScanOnSelection(points: seq<Point>, ks: seq<nat>, tolerance: real, dist: DistanceFn, pivot: nat, m: nat)
    requires tolerance >= 0.0 && SplitsAt(points, tolerance, dist, m)
    requires InRange(ks, |points|) && Increasing(ks)
    requires |ks| >= 3 && ks[0] == 0 && Last(ks) == |points| - 1
    requires 1 <= pivot < |ks| - 1 && ks[pivot] == m
    ensures SplitsAt(Select(points, ks), tolerance, dist, pivot)
  {
    ScanIsFirstMaximum(points, dist, |points| - 1);
    var r := Select(points, ks);
    var n := |points|;
    forall t | 1 <= t < |r| - 1
      ensures ChordDistance(r, dist, t) == ChordDistance(points, dist, ks[t])
      ensures 1 <= ks[t] < n - 1
      ensures t < pivot ==> ks[t] < m
    {
      assert r[t] == points[ks[t]];
      IncreasingBetween(ks, 0, t);
      IncreasingBetween(ks, t, |ks| - 1);
      if t < pivot {
        IncreasingBetween(ks, t, pivot);
      }
    }
    ScanFindsFirstMaximum(r, dist, |r| - 1, pivot);
  }

  /** Simplifying an already simplified ring with the same tolerance changes
      nothing. */
  lemma {:induction false} RdpIdempotent(points: seq<Point>, tolerance: real, dist: DistanceFn)
    requires tolerance >= 0.0
    ensures RamerDouglasPeucker(RamerDouglasPeucker(points, tolerance, dist), tolerance, dist)
         == RamerDouglasPeucker(points, tolerance, dist)
    decreases |points|, 1
  {
    if |points| > 2 {
      var f := ScanFarthest(points, dist, |points| - 1);
      if f.distance > tolerance {
        RdpIdempotentSplit(points, tolerance, dist, f.index);
      }
    }
  }

  /** The split case of `RdpIdempotent`: the re-run splits at the same point
      and the halves are already simplified. */
  lemma {:induction false} RdpIdempotentSplit(points: seq<Point>, tolerance: real, dist: DistanceFn, m: nat)
    requires tolerance >= 0.0 && SplitsAt(points, tolerance, dist, m)
    ensures RamerDouglasPeucker(RamerDouglasPeucker(points, tolerance, dist), tolerance, dist)
         == RamerDouglasPeucker(points, tolerance, dist)
    decreases |points|, 0
  {
    var lp, rp := points[..m + 1], points[m..];
    RdpIdempotent(lp, tolerance, dist);
    RdpIdempotent(rp, tolerance, dist);
    var r := RamerDouglasPeucker(points, tolerance, dist);
    var pivot := |RamerDouglasPeucker(lp, tolerance, dist)| - 1;
    RdpSplitsAt(points, tolerance, dist, m);
    RescanFindsPivot(points, tolerance, dist, m);
    RdpSplitsAt(r, tolerance, dist, pivot);
  }

  /** The recursion step of `RamerDouglasPeucker` at a split. */
  lemma {:induction false} RdpSplitsAt(points: seq<Point>, tolerance: real, dist: DistanceFn, m: nat)
    requires tolerance >= 0.0 && SplitsAt(points, tolerance, dist, m)
    ensures 0 < m < |points| - 1
    ensures RamerDouglasPeucker(points, tolerance, dist)
         == Glue(RamerDouglasPeucker(points[..m + 1], tolerance, dist), RamerDouglasPeucker(points[m..], tolerance, dist))
  {
    assert RamerDouglasPeucker(points, tolerance, dist) == RdpSplit(points, tolerance, dist, m);
  }

  /** The recursion step of `KeptIndices` at a split. */
  lemma {:induction false} KeptSplitsAt(points: seq<Point>, tolerance: real, dist: DistanceFn, m: nat)
    requires tolerance >= 0.0 && SplitsAt(points, tolerance, dist, m)
    ensures m < |points|
    ensures KeptIndices(points, tolerance, dist)
         == Join(KeptIndices(points[..m + 1], tolerance, dist), KeptIndices(points[m..], tolerance, dist), m)
  {
    assert KeptIndices(points, tolerance, dist) == KeptSplit(points, tolerance, dist, m);
  }

  /** Scanning the simplified ring again finds the first split point, at the
      position where the two simplified halves meet. */
  lemma {:induction false} RescanFindsPivot(points: seq<Point>, tolerance: real, dist: DistanceFn, m: nat)
    requires tolerance >= 0.0 && SplitsAt(points, tolerance, dist, m)
    ensures 0 < m < |points| - 1
    ensures var r := RamerDouglasPeucker(points, tolerance, dist);
      var sl := RamerDouglasPeucker(points[..m + 1], tolerance, dist);
      var pivot := |sl| - 1;
      && SplitsAt(r, tolerance, dist, pivot)
      && r[..pivot + 1] == sl
      && r[pivot..] == RamerDouglasPeucker(points[m..], tolerance, dist)
  {
    RdpSplitsAt(points, tolerance, dist, m);
    RescanSelection(points, tolerance, dist, m);
    RdpSelectsKeptIndices(points, tolerance, dist);
    RdpSelectsKeptIndices(points[..m + 1], tolerance, dist);
    var sl := RamerDouglasPeucker(points[..m + 1], tolerance, dist);
    var sr := RamerDouglasPeucker(points[m..], tolerance, dist);
    GlueSplits(sl, sr);
  }

  /** The rescan of the selection `KeptIndices` settles on the position of
      the split point `m`. */
  lemma {:induction false} RescanSelection(points: seq<Point>, tolerance: real, dist: DistanceFn, m: nat)
    requires tolerance >= 0.0 && SplitsAt(points, tolerance, dist, m)
    ensures var ks := KeptIndices(points, tolerance, dist);
      SplitsAt(Select(points, ks), tolerance, dist, |KeptIndices(points[..m + 1], tolerance, dist)| - 1)
  {
    var ks := KeptIndices(points, tolerance, dist);
    var left := KeptIndices(points[..m + 1], tolerance, dist);
    KeptPivot(points, tolerance, dist, m);
    ScanOnSelection(points, ks, tolerance, dist, |left| - 1, m);
  }

  /** In the kept indices of a split ring, the split point `m` sits where the
      left half's indices end. */
  lemma {:induction false} KeptPivot(points: seq<Point>, tolerance: real, dist: DistanceFn, m: nat)
    requires tolerance >= 0.0 && SplitsAt(points, tolerance, dist, m)
    ensures var ks := KeptIndices(points, tolerance, dist);
      var pivot := |KeptIndices(points[..m + 1], tolerance, dist)| - 1;
      && 0 < m < |points| - 1
      && 1 <= pivot < |ks| - 1 && ks[pivot] == m
      && ScanFarthest(points, dist, |points| - 1).distance == ChordDistance(points, dist, m)
  {
    KeptSplitsAt(points, tolerance, dist, m);
  }

  /** Two sequences glued at a shared element split back at that element. */
  lemma {:induction false} GlueSplits<T>(a: seq<T>, b: seq<T>)
    requires |a| >= 1 && |b| >= 1 && Last(a) == b[0]
    ensures Glue(a, b)[..|a|] == a
    ensures Glue(a, b)[|a| - 1..] == b
  {
    var c := Glue(a, b);
    assert c[..|a|] == a by {
      forall i | 0 <= i < |a| ensures c[i] == a[i] {}
    }
    assert c[|a| - 1..] == b by {
      forall i | 0 <= i < |b| ensures c[|a| - 1 + i] == b[i] {}
    }
  }

  /** Every point of `r` is a point of `points`. */
  predicate DrawnFrom(r: seq<Point>, points: seq<Point>) {
    forall i :: 0 <= i < |r| ==> r[i] in points
  }

  /** The simplified ring takes its points from the input. */
  lemma {:induction false} RdpPointsFromInput(points: seq<Point>, tolerance: real, dist: DistanceFn)
    requires tolerance >= 0.0
    ensures DrawnFrom(RamerDouglasPeucker(points, tolerance, dist), points)
  {
    RdpSelectsKeptIndices(points, tolerance, dist);
    var ks := KeptIndices(points, tolerance, dist);
    var r := Select(points, ks);
    forall i | 0 <= i < |r| ensures r[i] in points {
      assert r[i] == points[ks[i]];
    }
  }

  /** Python's `abs` on the coordinate differences. */
  function Abs(x: real): (a: real)
    ensures a >= 0.0 && (a == x || a == -x)
  {
    if x < 0.0 then -x else x
  }

  /** The closed-ring test of `simplify_polygons`: more than two points and
      first and last point within 1e-6 in both coordinates. */
  const ClosureEpsilon: real := 0.000001

  predicate IsClosed(points: seq<Point>) {
    && |points| > 2
    && Abs(points[0].x - Last(points).x) < ClosureEpsilon
    && Abs(points[0].y - Last(points).y) < ClosureEpsilon
  }

  /** The per-polygon body of `simplify_polygons`: strip the closing point of
      a closed ring, simplify, close again with the first point, and fall
      back to the first three input points when fewer than three remain. */
  function SimplifyRing(points: seq<Point>, tolerance: real, dist: DistanceFn): (r: seq<Point>)
    requires tolerance >= 0.0
    ensures |points| <= 2 ==> r == points
    ensures |points| >= 3 ==> 3 <= |r| <= |points|
    ensures IsClosed(points) ==> r[0] == points[0] && Last(r) == points[0]
  {
    if IsClosed(points) then
      var open := RamerDouglasPeucker(points[..|points| - 1], tolerance, dist);
      AtLeastThree(points, open + [open[0]])
    else
      AtLeastThree(points, RamerDouglasPeucker(points, tolerance, dist))
  }

  /** An open ring is simplified as it stands; when everything lies within
      `tolerance` of the chord, the clamp keeps the first three input points. */
  lemma {:induction false} SimplifyOpenRing(points: seq<Point>, tolerance: real, dist: DistanceFn)
    requires tolerance >= 0.0 && |points| >= 3 && !IsClosed(points)
    ensures var r := SimplifyRing(points, tolerance, dist);
      && (WithinChord(points, tolerance, dist) ==> r == points[..3])
      && (!WithinChord(points, tolerance, dist) ==> r == RamerDouglasPeucker(points, tolerance, dist))
  {
    RdpCollapsesIffWithinChord(points, tolerance, dist);
  }

  /** A closed ring is simplified without its closing point and closed again
      with its first point; the clamp never applies. */
  lemma {:induction false} SimplifyClosedRing(points: seq<Point>, tolerance: real, dist: DistanceFn)
    requires tolerance >= 0.0 && IsClosed(points)
    ensures var open := RamerDouglasPeucker(points[..|points| - 1], tolerance, dist);
      SimplifyRing(points, tolerance, dist) == open + [points[0]]
  {
  }

  /** The simplified ring takes its points from the input ring. */
  lemma {:induction false} SimplifyRingPointsFromInput(points: seq<Point>, tolerance: real, dist: DistanceFn)
    requires tolerance >= 0.0
    ensures DrawnFrom(SimplifyRing(points, tolerance, dist), points)
  {
    var r := SimplifyRing(points, tolerance, dist);
    if IsClosed(points) {
      var body := points[..|points| - 1];
      var open := RamerDouglasPeucker(body, tolerance, dist);
      RdpPointsFromInput(body, tolerance, dist);
      forall i | 0 <= i < |r| ensures r[i] in points {
        if i < |open| {
          assert r[i] == open[i];
          assert open[i] in body;
        } else {
          assert r[i] == points[0];
        }
      }
    } else if |RamerDouglasPeucker(points, tolerance, dist)| < 3 {
      forall i | 0 <= i < |r| ensures r[i] in points {
        assert r[i] == points[i];
      }
    } else {
      RdpPointsFromInput(points, tolerance, dist);
    }
  }

  /** The one case in which simplifying a ring again changes it: an open
      ring that collapses to its chord is clamped to its first three
      points, and those form a ring that counts as closed (first and third
      point within 1e-6) without ending on the first point exactly. */
  predicate ClampReopens(points: seq<Point>, tolerance: real, dist: DistanceFn) {
    && |points| >= 3
    && !IsClosed(points)
    && WithinChord(points, tolerance, dist)
    && IsClosed(points[..3])
    && points[2] != points[0]
  }

  /** Simplifying a simplified ring leaves it unchanged, except in the
      `ClampReopens` case, where the second pass re-closes the clamped ring
      with its first point. */
  lemma {:induction false} SimplifyRingIdempotent(points: seq<Point>, tolerance: real, dist: DistanceFn)
    requires tolerance >= 0.0
    ensures var r := SimplifyRing(points, tolerance, dist);
      SimplifyRing(r, tolerance, dist) == r <==> !ClampReopens(points, tolerance, dist)
  {
    var r := SimplifyRing(points, tolerance, dist);
    if |points| <= 2 {
    } else if IsClosed(points) {
      var body := points[..|points| - 1];
      var open := RamerDouglasPeucker(body, tolerance, dist);
      SimplifyClosedRing(points, tolerance, dist);
      assert r == open + [points[0]] && r[0] == points[0];
      assert IsClosed(r);
      SimplifyClosedRing(r, tolerance, dist);
      assert r[..|r| - 1] == open;
      RdpIdempotent(body, tolerance, dist);
    } else if !WithinChord(points, tolerance, dist) {
      SimplifyOpenRing(points, tolerance, dist);
      assert r[0] == points[0] && Last(r) == Last(points);
      assert !IsClosed(r);
      RdpIdempotent(points, tolerance, dist);
      assert SimplifyRing(r, tolerance, dist) == AtLeastThree(r, r);
    } else {
      SimplifyOpenRing(points, tolerance, dist);
      var q := points[..3];
      assert r == q;
      if IsClosed(q) {
        SimplifyClosedRing(q, tolerance, dist);
        assert q[..2] == [q[0], q[1]];
        assert SimplifyRing(q, tolerance, dist) == [q[0], q[1], q[0]];
      } else if WithinChord(q, tolerance, dist) {
        SimplifyOpenRing(q, tolerance, dist);
        assert q[..3] == q;
      } else {
        SimplifyOpenRing(q, tolerance, dist);
        RdpKeepsThree(q, tolerance, dist);
      }
    }
  }

  /** Three points that do not collapse to their chord are all kept. */
  lemma {:induction false} RdpKeepsThree(q: seq<Point>, tolerance: real, dist: DistanceFn)
    requires tolerance >= 0.0 && |q| == 3 && !WithinChord(q, tolerance, dist)
    ensures RamerDouglasPeucker(q, tolerance, dist) == q
  {
    RdpCollapsesIffWithinChord(q, tolerance, dist);
    var f := ScanFarthest(q, dist, 2);
    assert f.distance > tolerance;
    RdpSplitsAt(q, tolerance, dist, f.index);
    assert q[..2][..1] + q[1..] == q;
  }

  /** A ring on which the second pass differs: with every distance 0 and
      tolerance 0, the open ring collapses, is clamped to its first three
      points, and those re-close on the first point when simplified again. */
  lemma SimplifyRingTwiceReopens()
    ensures var pts := [Point(0.0, 0.0), Point(1.0, 1.0), Point(0.0000001, 0.0), Point(10.0, 0.0)];
      var zero: DistanceFn := (a: Point, b: Point, c: Point) => 0.0;
      && SimplifyRing(pts, 0.0, zero) == pts[..3]
      && SimplifyRing(SimplifyRing(pts, 0.0, zero), 0.0, zero) == [pts[0], pts[1], pts[0]]
  {
    var pts := [Point(0.0, 0.0), Point(1.0, 1.0), Point(0.0000001, 0.0), Point(10.0, 0.0)];
    var zero: DistanceFn := (a: Point, b: Point, c: Point) => 0.0;
    assert WithinChord(pts, 0.0, zero);
    assert !IsClosed(pts);
    SimplifyOpenRing(pts, 0.0, zero);
    var q := pts[..3];
    assert IsClosed(q);
    SimplifyClosedRing(q, 0.0, zero);
    assert q[..2] == [pts[0], pts[1]];
  }

  /** The safety clamp: fewer than three simplified points are replaced by
      the first three input points (or by the input when it is shorter). */
  function AtLeastThree(points: seq<Point>, simplified: seq<Point>): (ring: seq<Point>) {
    if |simplified| < 3 then
      if |points| >= 3 then points[..3] else points
    else simplified
  }

  /** The records `simplify_polygons` returns: each input record under its
      own name, with its ring simplified. */
  function Simplified(polygons: seq<Polygon>, tolerance: real, dist: DistanceFn): (simplified: seq<Polygon>)
    requires tolerance >= 0.0
  {
    seq(|polygons|, i requires 0 <= i < |polygons| =>
      Polygon(polygons[i].name, SimplifyRing(polygons[i].points, tolerance, dist)))
  }

  /** `simplify_polygons(catch_polys, tolerance)`: the loop form of
      `Simplified`, one output polygon per input polygon, in order, under the
      same name. */
  method SimplifyPolygons(polygons: seq<Polygon>, tolerance: real, dist: DistanceFn) returns (r: seq<Polygon>)
    requires tolerance >= 0.0
    ensures |r| == |polygons|
    ensures forall i :: 0 <= i < |r| ==> r[i].name == polygons[i].name
    ensures forall i :: 0 <= i < |r| ==> r[i].points == SimplifyRing(polygons[i].points, tolerance, dist)
  {
    r := [];
    for i := 0 to |polygons|
      invariant |r| == i
      invariant forall j :: 0 <= j < i ==> r[j].name == polygons[j].name
      invariant forall j :: 0 <= j < i ==> r[j].points == SimplifyRing(polygons[j].points, tolerance, dist)
    {
      r := r + [Polygon(polygons[i].name, SimplifyRing(polygons[i].points, tolerance, dist))];
    }
  }
}

=== FILE: strings.dfy ===
/** The string formatting and parsing the pipeline relies on: Python's
    `f"{n}"` and `f"{n:03d}"` for non-negative integers, `int(text)`,
    `str.startswith`, `str.endswith` and `str.split(sep)[1]`. */
module Strings {
  import opened Wrappers

  predicate IsDigit(c: char) {
    '0' <= c <= '9'
  }

  predicate AllDigits(s: string) {
    forall i :: 0 <= i < |s| ==> IsDigit(s[i])
  }

  function DigitChar(d: nat): (c: char)
    requires d < 10
    ensures IsDigit(c)
  {
    ('0' as int + d) as char
  }

  function DigitValue(c: char): (d: nat)
    requires IsDigit(c)
    ensures d < 10 && DigitChar(d) == c
  {
    c as int - '0' as int
  }

  /** `f"{n}"`: the decimal rendering, without leading zeros. */
  function NatToString(n: nat): (s: string)
    ensures AllDigits(s)
    ensures |s| == 1 <==> n < 10
    ensures 1 <= |s|
    ensures s[0] == '0' ==> n == 0
    decreases n
  {
    if n < 10 then [DigitChar(n)] else NatToString(n / 10) + [DigitChar(n % 10)]
  }

  /** The number a string of decimal digits denotes (leading zeros allowed). */
  function DigitsValue(s: string): (value: nat)
    requires AllDigits(s)
  {
    if |s| == 0 then 0 else DigitsValue(s[..|s| - 1]) * 10 + DigitValue(s[|s| - 1])
  }

  /** Reading back a rendered number gives the number. */
  lemma {:induction false} NatToStringRoundTrip(n: nat)
    ensures DigitsValue(NatToString(n)) == n
    decreases n
  {
    var s := NatToString(n);
    if n < 10 {
      assert s[..|s| - 1] == [];
    } else {
      NatToStringRoundTrip(n / 10);
      assert s[..|s| - 1] == NatToString(n / 10);
    }
  }

  /** Distinct numbers render to distinct strings. */
  lemma NatToStringInjective(a: nat, b: nat)
    ensures NatToString(a) == NatToString(b) <==> a == b
  {
    NatToStringRoundTrip(a);
    NatToStringRoundTrip(b);
  }

  function Zeros(k: nat): (z: string)
    ensures |z| == k && AllDigits(z)
    ensures forall i :: 0 <= i < k ==> z[i] == '0'
  {
    if k == 0 then [] else Zeros(k - 1) + ['0']
  }

  /** `format(s, "0>width")`: left-pads with '0' up to `width`; longer
      strings are left as they are. */
  function ZeroPad(s: string, width: nat): (r: string)
    ensures |r| == if |s| >= width then |s| else width
    ensures r[|r| - |s|..] == s
    ensures forall i :: 0 <= i < |r| - |s| ==> r[i] == '0'
    ensures AllDigits(s) ==> AllDigits(r)
  {
    if |s| >= width then s else Zeros(width - |s|) + s
  }

  /** Leading zeros do not change the value of a digit string. */
  lemma {:induction false} LeadingZerosValue(z: string, s: string)
    requires AllDigits(s)
    requires forall i :: 0 <= i < |z| ==> z[i] == '0'
    ensures AllDigits(z + s)
    ensures DigitsValue(z + s) == DigitsValue(s)
    decreases |s|
  {
    if |s| == 0 {
      assert z + s == z;
      ZerosValue(z);
    } else {
      var t := s[..|s| - 1];
      assert (z + s)[..|z + s| - 1] == z + t;
      LeadingZerosValue(z, t);
    }
  }

  lemma {:induction false} ZerosValue(z: string)
    requires forall i :: 0 <= i < |z| ==> z[i] == '0'
    ensures AllDigits(z) && DigitsValue(z) == 0
    decreases |z|
  {
    if |z| > 0 {
      ZerosValue(z[..|z| - 1]);
    }
  }

  predicate IsSign(c: char) {
    c == '+' || c == '-'
  }

  /** The texts `int()` accepts here: one or more digits, possibly after a
      sign. */
  predicate IsIntLiteral(text: string) {
    || (|text| > 0 && AllDigits(text))
    || (|text| > 1 && IsSign(text[0]) && AllDigits(text[1..]))
  }

  /** Python's `int(text)` on the texts it accepts here: an optional sign
      followed by one or more ASCII digits; anything else raises `ValueError`
      (`None`). */
  function ParseInt(text: string): (r: Option<int>)
    ensures r.Some? <==> IsIntLiteral(text)
    ensures AllDigits(text) && |text| > 0 ==> r == Some(DigitsValue(text))
    ensures r.Some? && text[0] == '+' ==> r.value == DigitsValue(text[1..])
    ensures r.Some? && text[0] == '-' ==> r.value == -(DigitsValue(text[1..]) as int)
  {
    if |text| > 0 && (text[0] == '+' || text[0] == '-') then
      var digits := text[1..];
      if |digits| > 0 && AllDigits(digits) then
        Some(if text[0] == '-' then -(DigitsValue(digits) as int) else DigitsValue(digits))
      else None
    else if |text| > 0 && AllDigits(text) then Some(DigitsValue(text))
    else None
  }

  /** A signed decimal rendering parses back to the signed number. */
  lemma SignedRoundTrip(n: nat)
    ensures ParseInt("+" + NatToString(n)) == Some(n)
    ensures ParseInt("-" + NatToString(n)) == Some(-(n as int))
  {
    var d := NatToString(n);
    NatToStringRoundTrip(n);
    SignedParse('+', d);
    SignedParse('-', d);
  }

  /** A sign before a non-empty run of digits is read as that sign. */
  lemma SignedParse(sign: char, digits: string)
    requires IsSign(sign) && |digits| > 0 && AllDigits(digits)
    ensures ParseInt([sign] + digits)
      == Some(if sign == '-' then -(DigitsValue(digits) as int) else DigitsValue(digits))
  {
    var t := [sign] + digits;
    assert t[0] == sign && t[1..] == digits;
  }

  /** A zero-padded rendering parses back to the number it renders. */
  lemma PaddedRoundTrip(n: nat, width: nat)
    ensures ParseInt(ZeroPad(NatToString(n), width)) == Some(n)
  {
    var s := NatToString(n);
    var r := ZeroPad(s, width);
    NatToStringRoundTrip(n);
    if |s| < width {
      LeadingZerosValue(Zeros(width - |s|), s);
    }
  }

  predicate StartsWith(s: string, prefix: string) {
    |prefix| <= |s| && s[..|prefix|] == prefix
  }

  predicate EndsWith(s: string, suffix: string) {
    |suffix| <= |s| && s[|s| - |suffix|..] == suffix
  }

  /** `sep` occurs in `s` starting at index `i`. */
  predicate OccursAt(s: string, sep: string, i: nat) {
    i + |sep| <= |s| && s[i..i + |sep|] == sep
  }

  /** `s.find(sep, from)`: the first occurrence of `sep` at or after `from`. */
  function FindFrom(s: string, sep: string, from: nat): (r: Option<nat>)
    ensures r.Some? ==> from <= r.value && OccursAt(s, sep, r.value)
    ensures r.Some? ==> forall i :: from <= i < r.value ==> !OccursAt(s, sep, i)
    ensures r.None? ==> forall i :: from <= i ==> !OccursAt(s, sep, i)
    decreases |s| - from
  {
    if from + |sep| > |s| then None
    else if OccursAt(s, sep, from) then Some(from)
    else FindFrom(s, sep, from + 1)
  }

  /** The text of `s` from `start` up to the next occurrence of `sep` at or
      after `start`, or up to the end of `s` when there is none. */
  function FieldFrom(s: string, sep: string, start: nat): (r: string)
    requires |sep| > 0 && start <= |s|
    ensures StartsWith(s[start..], r)
    ensures forall k: nat :: !OccursAt(r, sep, k)
  {
    match FindFrom(s, sep, start)
    case None =>
      NoOccurrenceInSuffix(s, sep, start, |s|);
      assert s[start..] == s[start..|s|];
      s[start..]
    case Some(j) =>
      NoOccurrenceInSuffix(s, sep, start, j);
      s[start..j]
  }

  /** `field` is the text of `s` from `start` up to the first occurrence of
      `sep` at or after `start`, or up to the end of `s` when there is none. */
  predicate IsFieldAt(s: string, sep: string, start: nat, field: string) {
    && start + |field| <= |s|
    && s[start..start + |field|] == field
    && (forall i :: start <= i < start + |field| ==> !OccursAt(s, sep, i))
    && (start + |field| == |s| || OccursAt(s, sep, start + |field|))
  }

  /** The field from `start` is the text up to the next separator. */
  lemma FieldFromEnds(s: string, sep: string, start: nat)
    requires |sep| > 0 && start <= |s|
    ensures IsFieldAt(s, sep, start, FieldFrom(s, sep, start))
  {
  }

  /** `s.split(sep)[1]`: the text between the first and the second
      occurrence of `sep` (or the end of `s`); `None` when `sep` does not
      occur, where Python raises `IndexError`. */
  function SecondField(s: string, sep: string): (r: Option<string>)
    requires |sep| > 0
    ensures r.Some? <==> FindFrom(s, sep, 0).Some?
    ensures r.Some? ==> StartsWith(s[FindFrom(s, sep, 0).value + |sep|..], r.value)
    ensures r.Some? ==> forall k: nat :: !OccursAt(r.value, sep, k)
    ensures r.Some? ==> IsFieldAt(s, sep, FindFrom(s, sep, 0).value + |sep|, r.value)
  {
    match FindFrom(s, sep, 0)
    case None => None
    case Some(i) =>
      FieldFromEnds(s, sep, i + |sep|);
      Some(FieldFrom(s, sep, i + |sep|))
  }

  /** A slice of `s` in which no occurrence of `sep` starts before `end`
      contains no occurrence of `sep`. */
  lemma NoOccurrenceInSuffix(s: string, sep: string, start: nat, end: nat)
    requires |sep| > 0
    requires start <= end <= |s|
    requires forall i :: start <= i < end ==> !OccursAt(s, sep, i)
    ensures forall k: nat :: !OccursAt(s[start..end], sep, k)
  {
    forall k: nat
      ensures !OccursAt(s[start..end], sep, k)
    {
      if OccursAt(s[start..end], sep, k) {
        var t := s[start..end];
        var a, b := t[k..k + |sep|], s[start + k..start + k + |sep|];
        assert forall i :: 0 <= i < |sep| ==> a[i] == b[i];
        assert a == b;
        assert OccursAt(s, sep, start + k);
      }
    }
  }
}

=== FILE: wrappers.dfy ===
/** Failure-carrying result types shared by the pipeline stages. */
module Wrappers {

  /** A value that may be absent: Python's `None` versus a present value. */
  datatype Option<+T> = None | Some(value: T)

  /** The outcome of an operation that can raise: the value it returns,
      or the error it raises. */
  datatype Result<+R, +E> = Success(value: R) | Failure(error: E)
}
